=== FILE: README.md ===
# Frequent data store — a Dafny model of its core

The application keeps code snippets in the browser's IndexedDB. There are two object stores,
both keyed by `name`:

- `groups` holds `{name}` documents. A fresh database is seeded with the group "Common".
- `snippetCategories` holds `{name, snippets}` documents. Each snippet has an id, the name of a
  group, a name and a list of content blocks.

The UI reaches the database through a small keyed-store class, `IndexedDBStore`. Until the
connection is open, the stores in the global state are bare `BaseStore`s, whose every method
throws.

This project models that core as pure functions over immutable values:

- **Keyed document store** (`store.dfy`, `key_order.dfy`).
  - A collection is a `map<string, D>` from key to document.
  - The store is a datatype with two cases: `BaseStore`, and `IndexedDBStore` with an optional
    connection handle.
  - A call ends in one of three ways, given by the `Completion` datatype in `outcomes.dfy`:
    - it resolves with a value;
    - it rejects with a reason, which may be null;
    - it throws synchronously, before any promise exists.
  - Engine failures are parameters: the error event a request would raise.
  - `parseError` is modelled case by case.
  - `findAll` lists documents in the engine's ascending key order, which compares UTF-16 code
    units.
- **Snippet-list transformations** (`snippet_edits.dfy`):
  - the upsert mutator of the snippet form;
  - the delete-by-id filter of a snippet card;
  - the bucketing of a category's snippets by group;
  - the edit payload.
- **Session** (`session.dfy`):
  - the initial, disconnected global state and the connected state;
  - the schema step of the open handshake;
  - the `dbState` transitions;
  - the two cache loaders;
  - the dialog and edit-snippet state;
  - the blocking dialog.
- **Forms** (`forms.dfy`):
  - name validation;
  - the document each form writes;
  - how each form's `.then`/`.catch` chain turns a store result into feedback:
    - Invalid;
    - Saved;
    - a field error;
    - the generic notice;
    - nothing at all, when the failure escapes the handler.
  - the delete button's notice;
  - the snippet form's defaults, `DefaultSnippetForm` (src/components/AddSnippetForm.tsx:27-32):
    empty names and one empty content block. Every successful submit resets the form to them.

`delete` resolves with the success event's `type` (`"success"`), not with the deleted key.

Strings are seen as JavaScript and IndexedDB see them (`utf16.dfy`). A character above U+FFFF
is two UTF-16 code units, a high surrogate and then a low surrogate. Keys are compared code unit
by code unit, and a name's `length` counts code units.

## Model

| member | source | states |
|---|---|---|
| Store.Guard | src/store-manager/base-store.ts:1-20 | A bare `BaseStore` fails every call with "Method not implemented."; an `IndexedDBStore` without a handle fails with "Indexed DB is undefined"; only a connected store gets past the guard; the handle check is `validateAndGetDB` at src/store-manager/indexeddb-store.ts:17-20 |
| Store.SetDB | src/store-manager/indexeddb-store.ts:13-15 | After `setDB` the store is connected and still names the same object store |
| Store.ParseError | src/store-manager/indexeddb-store.ts:106-112 | No target gives the generic Error; a target carrying `error` gives that error (null stays null); a target without `error` gives null — the reason is null exactly in the last two null cases |
| Store.Add | src/store-manager/indexeddb-store.ts:22-32 | Insert-only: throws when not connected; resolves with exactly the payload and stores it under its key iff the key is new and the engine does not fail; a duplicate key rejects with a ConstraintError and leaves the collection unchanged; an engine fault rejects with `parseError` of its event |
| Store.FindAll | src/store-manager/indexeddb-store.ts:33-43 | Throws when not connected; resolves iff the engine does not fail, with a list of exactly the stored documents, one per key, in strictly ascending key order, comparing UTF-16 code units |
| Store.FindByKey | src/store-manager/indexeddb-store.ts:44-54 | An absent key resolves to `undefined` rather than failing; a present key resolves to its document |
| Store.FindOneAndUpdate | src/store-manager/indexeddb-store.ts:55-82 | A missing key rejects with "Document with key … is not found", never calls the mutator and writes nothing; a present key calls the mutator exactly once on the stored document, `put`s its result under the result's own key and resolves with that same document; a read or write fault rejects with `parseError` and writes nothing |
| Store.Update | src/store-manager/indexeddb-store.ts:83-93 | `put` replaces or inserts the payload under its key and resolves with exactly the payload; on failure the collection is unchanged |
| Store.Delete | src/store-manager/indexeddb-store.ts:94-104 | Resolves with the success event's type "success" (not the key); removes the key if present, keeps every other document; an absent key is not an error |
| Store.AddThenFindByKey | src/store-manager/indexeddb-store.ts:22-54 | A document added under a new key is found again by that key |
| Store.DuplicateAddKeepsFirst | src/store-manager/indexeddb-store.ts:22-31 | A second `add` under a stored key rejects with a ConstraintError and the first document stays |
| Store.FindOneAndUpdateThenFindByKey | src/store-manager/indexeddb-store.ts:55-82 | After a key-preserving `findOneAndUpdate`, looking up the key yields the mutator's result |
| Store.DeleteThenFindByKey | src/store-manager/indexeddb-store.ts:94-104 | After `delete`, looking up the key resolves to `undefined` |
| Store.WritesKeepCollectionWellKeyed | src/store-manager/indexeddb-store.ts:22-104 | `add`, `put`, `delete` and `findOneAndUpdate` keep every document under its own key, on every outcome |
| KeyOrder.SortedKeys | src/store-manager/indexeddb-store.ts:37-40 | The keys of a collection, each exactly once, in strictly ascending order of their UTF-16 code units (a proper prefix first), the order `getAll` returns |
| KeyOrder.BelowTotal | src/store-manager/indexeddb-store.ts:37-40 | Of two distinct keys one sorts first: distinct strings have distinct code-unit sequences, so the key order is total |
| KeyOrder.SurrogatesSortBeforeHighBmp | src/store-manager/indexeddb-store.ts:37-40 | Of two keys that agree up to one character, one above U+FFFF sorts before one in U+E000–U+FFFF, whatever follows, though its code point is larger |
| KeyOrder.Listing | src/store-manager/indexeddb-store.ts:37-40 | Lists every document of a collection exactly once and nothing else; when documents sit under their own keys, in ascending key order |
| SnippetEdits.FirstIndexOf | src/components/AddSnippetForm.tsx:89-91 | `find` by id: the first position whose id matches, or none exactly when no snippet has that id (always none when nothing is being edited) |
| SnippetEdits.UpsertSnippet | src/components/AddSnippetForm.tsx:88-106 | Without a match, a new snippet with the given id, group, name and contents is appended and every earlier snippet is kept in order; with a match, only the first match takes the new content, name and group, keeping its id and position, and the length is unchanged; the category name never changes |
| SnippetEdits.UpsertThenDeleteRestores | src/components/AddSnippetForm.tsx:93-99 | Deleting a freshly appended snippet by its new id gives back the original category, so the append touched nothing else |
| SnippetEdits.UpsertOwnFieldsIsIdentity | src/components/AddSnippetForm.tsx:100-104 | Re-submitting a snippet's own fields as an edit leaves the category unchanged |
| SnippetEdits.UpsertEditIdempotent | src/components/AddSnippetForm.tsx:100-104 | Applying the same edit twice equals applying it once |
| SnippetEdits.WithoutId | src/components/Snippets.tsx:81 | A snippet is kept iff it was in the list and its id differs from the target; an id that is absent leaves the list unchanged |
| SnippetEdits.WithoutIdCounts | src/components/Snippets.tsx:81 | Every kept snippet occurs as often as in the input; removed snippets not at all |
| SnippetEdits.WithoutIdDistributes | src/components/Snippets.tsx:81 | The filter commutes with concatenation, so kept snippets stay in their input order |
| SnippetEdits.DeleteSnippet | src/components/Snippets.tsx:79-83 | The delete mutator changes only `snippets`: it keeps exactly the snippets whose id differs; a missing id returns the category unchanged |
| SnippetEdits.ToEditSnippet | src/components/Snippets.tsx:129-131 | The edit payload carries the snippet's fields unchanged plus the owning category's name |
| SnippetEdits.GroupFrom | src/components/Snippets.tsx:67-74 | Reducing from an accumulator adds one bucket per new group and appends to each bucket exactly that group's snippets, in input order |
| SnippetEdits.GroupSnippets | src/components/Snippets.tsx:66-75 | There is a bucket exactly for each group that occurs, and it holds exactly that group's snippets in input order |
| SnippetEdits.GroupingPlacesEachSnippetOnce | src/components/Snippets.tsx:66-75 | No bucket is empty; every snippet has a bucket for its group, where it occurs as often as in the input, and no bucket holds a snippet of another group |
| SnippetEdits.GroupFromSize | src/components/Snippets.tsx:67-74 | Each reduce step adds exactly one snippet to the total size of the buckets |
| SnippetEdits.BucketSizesSumToInput | src/components/Snippets.tsx:66-75 | The bucket sizes sum to the number of snippets |
| SnippetEdits.NoBucketsIffNoSnippets | src/components/Snippets.tsx:102-106 | "No snippets found" shows (no buckets) exactly when the category has no snippets |
| SnippetEdits.GroupFromAsWrittenAgrees | src/components/Snippets.tsx:67-74 | The reduce as written crashes once any group name is an inherited property of `{}`, and otherwise agrees with the intended reduce |
| SnippetEdits.GroupAsWrittenFailsIffInheritedName | src/components/Snippets.tsx:66-75 | The grouping as written fails exactly when some snippet's group is an inherited property name, and otherwise yields the intended buckets |
| SnippetEdits.ToStringGroupBreaksGrouping | src/components/Snippets.tsx:67-72 | One snippet in the group "toString" makes the grouping as written fail, while the intended grouping gives it its own bucket |
| Session.DefaultStoresAlwaysFail | src/contexts/GlobalContext.ts:17-28 | The initial caches are empty, and every store call of the initial state (all six methods on both collections, `findOneAndUpdate` with any mutator) throws "Method not implemented." and leaves the collection as it was |
| Session.RunLoader | src/App.tsx:63-72 | A loader never throws synchronously; the initial loader resolves `[]`; a connected loader resolves iff its read succeeds, with the engine's listing of the collection (every document once, in ascending key order), and a failed read rejects with `parseError` of the read's event; a store that is not connected rejects with its guard's error |
| Session.LoadGroups | src/App.tsx:63-67 | `loadGroups` replaces only `groups`, with the engine's listing of the group collection, and leaves every other field of the state; on failure the state is unchanged |
| Session.LoadSnippetCategory | src/App.tsx:68-72 | `loadSnippetCategory` replaces only `snippetCategories`, with the engine's listing of the category collection, and leaves every other field; on failure the state is unchanged |
| Session.UpgradeSchema | src/App.tsx:77-91 | An object store is created only when missing: `groups` is seeded with exactly the Common group, `snippetCategories` starts empty; an existing store is kept as it is |
| Session.UpgradeSchemaIdempotent | src/App.tsx:77-91 | Running the schema step on a database that has both stores changes nothing, so running it twice equals running it once |
| Session.UpgradeSchemaWellKeyed | src/App.tsx:80-90 | The schema step keeps every document under its own key |
| Session.SeedThenAddListsBoth | src/App.tsx:80-85 | On a fresh database, after adding the group "Work", `add` resolves with it and `findAll` lists exactly the seed and then "Work" |
| Session.OnOpenError | src/App.tsx:41 | An open error sets `dbState` to "error" and changes nothing else |
| Session.OnBlocked | src/App.tsx:42 | A blocked open sets `dbState` to "old-version-error" and changes nothing else |
| Session.OnOpenSuccess | src/App.tsx:43-76 | The state becomes ready iff both `findAll`s succeed, with stores bound to the two object stores, caches holding the engine's listing of each collection, in key order, and reloading loaders; otherwise "error" with the global state untouched |
| Session.OnMenuClick | src/App.tsx:102-105 | A menu click opens the chosen dialog and clears the edited snippet |
| Session.OnEditSnippetClick | src/App.tsx:108-111 | An edit click remembers the snippet and opens "add_snippet" |
| Session.CloseDialog | src/App.tsx:115-132 | A form's `onClose` closes every dialog and keeps the rest of the state |
| Session.BlockingDialog | src/App.tsx:133-145 | The blocking dialog is open exactly when `dbState` is "error" or "old-version-error", and shows the message matching that state |
| Session.HandshakeBlocksOnlyOnFailure | src/App.tsx:34-76 | From the initial "connecting" state the dialog is closed; after an error or a block it is open; after a successful open and schema step it closes iff both reads succeed |
| Forms.ValidateName | src/components/AddCategoryForm.tsx:72-78 | A name is accepted iff it is non-empty and at most 255 UTF-16 code units, as `length` counts them; an empty one is "required", a longer one "too long" |
| Forms.SupplementaryNameTooLong | src/components/AddCategoryForm.tsx:72-78 | A name of 128 characters above U+FFFF is "too long": it is 256 code units |
| Forms.BmpNameFits | src/components/AddCategoryForm.tsx:72-78 | A non-empty name of at most 255 characters, none above U+FFFF, passes the length rule |
| Forms.CatchFeedback | src/components/AddCategoryForm.tsx:48-58 | A ConstraintError gives the "already exists" field error; any other reason gives the generic notice; a null reason crashes the handler; a form without the field branch always shows the generic notice |
| Forms.SubmitCategory | src/components/AddCategoryForm.tsx:32-59 | Saves iff the name is valid and new, the store is connected and the reload succeeds. The collection afterwards is exactly the old one plus `{name, snippets: []}` when the add went through, and the old one otherwise; a failed reload keeps that write. On success the category cache is reloaded with the engine's listing and the name is cleared; on any failure the global state is unchanged. A faulted add or reload gives the catch handler's feedback for `parseError`'s reason (a ConstraintError gives the field error, a null reason escapes the handler); a duplicate gets the field error; before connection the throw escapes |
| Forms.SubmitGroup | src/components/AddGroupForm.tsx:30-46 | Saves iff the name is valid and new, the store is connected and the reload succeeds. The collection afterwards is exactly the old one plus `{name}` when the add went through, and the old one otherwise; a failed reload keeps that write. On success the group cache is reloaded with the engine's listing; on any failure the global state is unchanged. Every rejection, a duplicate included, gives the generic notice, never a field error |
| Forms.FormFromEdit | src/components/AddSnippetForm.tsx:71-80 | Opening an edit loads the snippet's name, group, category and contents into the form |
| Forms.ContentErrors | src/components/AddSnippetForm.tsx:242-244 | No error exactly when every block is non-empty; every error is "required" on a content block; the block at position i has an error exactly when its value is empty, so each error sits on its own empty block |
| Forms.ValidateSnippetForm | src/components/AddSnippetForm.tsx:150-247 | The snippet form passes iff the name is non-empty and at most 255 UTF-16 code units, a category and a group are chosen, and every content block is non-empty |
| Forms.EditedId | src/components/AddSnippetForm.tsx:88-90 | The id the mutator looks for is the edit payload's id when editing, and none when creating |
| Forms.SnippetMutator | src/components/AddSnippetForm.tsx:88-107 | The mutator handed to `findOneAndUpdate` keeps the category's name; when creating it appends exactly one snippet with the new id and the form's values; when editing a present id it gives the first snippet with that id the form's group, name and contents under its old id and leaves every other snippet as it was; an edited id that is absent appends a new snippet, as creating does |
| Forms.SubmitSnippet | src/components/AddSnippetForm.tsx:84-139 | Saves iff the form is valid, the store is connected, the category exists and both the update and the reload succeed. The stored categories afterwards are exactly the upsert of the form's values when read and write succeeded, and unchanged otherwise; a failed reload keeps that write. On success the category cache is reloaded with the engine's listing, the form resets to its defaults, the buttons re-enable and an edit closes the dialog; on any failure the global state is unchanged and the form and the busy state stay. A faulted read, write or reload gives the catch handler's feedback for `parseError`'s reason (a ConstraintError gives the name-field error, a null reason escapes the handler); a missing category gives the generic notice |
| Forms.ClickDelete | src/components/Snippets.tsx:77-98 | Shows the success notice iff the store is connected, the category exists and the update and reload succeed; every rejection shows the error notice; before connection no notice shows. The stored categories afterwards hold the category filtered by id exactly when read and write succeeded, so a failed reload shows the error notice although the snippet is deleted; otherwise they are unchanged. On success the category cache is reloaded with the engine's listing; on any failure the global state is unchanged |
| Forms.SubmitsBeforeConnectionAreUnhandled | src/contexts/GlobalContext.ts:17-20 | Before the connection, every valid submit of the three forms throws in the store, writes nothing and shows no feedback |
| Forms.UnchangedEditKeepsCategory | src/components/AddSnippetForm.tsx:71-106 | Editing a snippet and submitting it unchanged saves, leaves the stored categories as they were, resets the form and closes the dialog |
| Forms.NewCategoryThenSnippet | src/components/AddSnippetForm.tsx:88-99 | A new category followed by a new snippet in it stores exactly that one snippet, with the id the form was given |
| Forms.CreateThenDeleteRestores | src/components/Snippets.tsx:77-98 | Creating a snippet under a fresh id and then deleting it from its card both report success and give back the stored categories as they were |
| Forms.CreateSaves | src/components/AddSnippetForm.tsx:84-126 | A valid new snippet on a connected store with an existing category saves, writes the appended category back under its key and keeps the state connected |
| Forms.DeleteSucceeds | src/components/Snippets.tsx:77-98 | On a connected store with an existing category, a delete reports success and writes the filtered category back |

## Left out

- IndexedDB itself is not modelled: opening, versions, transactions, request callbacks and their
  timing. Engine failures are parameters. The `put` that `findOneAndUpdate` issues in its `.then`
  is assumed to run, and whether the read transaction is still active then is not modelled.
- Promise scheduling and concurrent callers on the same key are not modelled.
- `findAll`'s `|| []` fallback is not modelled: the engine's `getAll` always yields a list.
- `findOneAndUpdate` tests the read result for truthiness. Stored documents are objects, so the
  model treats truthy as present.
- Keys that are not strings do not arise.
- Strings holding an unpaired surrogate are not modelled. JavaScript allows them, but a Dafny
  `char` is a Unicode scalar value, so every character encodes as a well-formed unit sequence.
- SnippetEdits.GroupSnippets: the model's buckets form a map. The display order of
  `Object.entries` is not modelled: integer-like group names come first, in numeric order, and
  the rest follow in insertion order.
- The upsert mutator of the snippet form changes the document it read in place and returns it.
  The delete mutator of a snippet card returns a shallow copy with a new, filtered snippet
  array. The model treats both as pure functions. The stored result is the same either way,
  because the engine stores a clone of the returned value.
- The global state's `idb` field is not modelled, because nothing reads it.
- `console.log`, the snackbar and tooltip timers, clipboard writes, React/MUI rendering and the
  layout and category list components are not modelled.
- `Date.now()` is not modelled. The new snippet id is a parameter.
- Notice texts are not modelled beyond their kind.
  - The delete-failure notice reuses the success wording with severity "error". The model keeps
    only the severity.
  - The snippet form's "Group name already exists" text on the name field is modelled as an
    "already exists" error on that field.
- The configuration file that names the database, its version and the object stores is not part
  of this model. The store names "groups" and "snippetCategories" stand in for its constants.
- The category select being disabled while editing is a display matter and is not modelled.
- `BaseStore` is a class that `IndexedDBStore` extends. It is modelled as one case of a store
  datatype.

## Findings

| source | as written | input that shows it | evidently intended | confidence | as-written member | corrected member |
|---|---|---|---|---|---|---|
| src/components/Snippets.tsx:66-75 | The reduce starts from `{}`. For a group named after an inherited property of `Object.prototype` (`toString`, `constructor`, `__proto__`, …), `acc[snippet.group]` is truthy before any bucket exists, so `.push` is called on a function and throws a TypeError that ends the render | One snippet whose group is "toString". The group form accepts that name, since it is non-empty and short | Every group gets its own bucket holding exactly its snippets, whatever its name (an accumulator without a prototype, or a `Map`) | high, not executed | SnippetEdits.GroupSnippetsAsWritten, shown by SnippetEdits.ToStringGroupBreaksGrouping and SnippetEdits.GroupAsWrittenFailsIffInheritedName | SnippetEdits.GroupSnippets, with SnippetEdits.GroupingPlacesEachSnippetOnce and SnippetEdits.BucketSizesSumToInput |

=== FILE: forms.dfy ===
/** The forms' submit logic: field validation, the document each form writes, and how a store
    result becomes feedback. The outcome of a submit is
    - Invalid: validation stopped it; no store call happens;
    - Saved: the write and the reload both succeeded; a success notice shows and the form resets;
    - FieldRejected: the catch handler put an error on a field;
    - SomethingWentWrong: the catch handler showed the generic error notice;
    - Unhandled: the failure escaped the handler (a synchronous throw of the store, or a catch
      handler reading `name` of a null reason), so no feedback shows. */
module Forms {
  import opened Outcomes
  import opened Models
  import opened Store
  import opened SnippetEdits
  import opened Session
  import opened KeyOrder
  import Utf16

  const MaxNameLength := 255

  /** The name of the error the engine raises for a duplicate key. */
  const ConstraintErrorName := "ConstraintError"

  datatype Field =
    | CategoryNameField
    | GroupNameField
    | SnippetNameField
    | CategorySelectField
    | GroupSelectField
    | ContentField(index: nat)

  datatype Issue = Required | TooLong | AlreadyExists

  datatype FieldError = FieldError(field: Field, issue: Issue)

  datatype Feedback =
    | Invalid(errors: seq<FieldError>)
    | Saved
    | FieldRejected(error: FieldError)
    | SomethingWentWrong
    | Unhandled

  /** The rules of every name field: required, then at most 255 characters, counted as
      JavaScript's `length` counts them, in UTF-16 code units. */
  function ValidateName(field: Field, name: string): (r: Option<FieldError>)
    ensures r.None? <==> 0 < Utf16.Length(name) <= MaxNameLength
    ensures r.Some? ==> r.value.field == field
    ensures r == Some(FieldError(field, Required)) <==> name == ""
    ensures r == Some(FieldError(field, TooLong)) <==> Utf16.Length(name) > MaxNameLength
  {
    if |name| == 0 then Some(FieldError(field, Required))
    else if Utf16.Length(name) > MaxNameLength then Some(FieldError(field, TooLong))
    else None
  }

  /** A name of 128 characters above U+FFFF is too long: it is 256 code units. */
  lemma SupplementaryNameTooLong(field: Field, name: string)
    requires |name| == 128
    requires forall i :: 0 <= i < |name| ==> name[i] as int >= Utf16.Supplementary
    ensures ValidateName(field, name) == Some(FieldError(field, TooLong))
  {
    Utf16.SupplementaryLength(name);
  }

  /** A name of up to 255 characters at or below U+FFFF passes the length rule. */
  lemma BmpNameFits(field: Field, name: string)
    requires 0 < |name| <= MaxNameLength
    requires forall i :: 0 <= i < |name| ==> name[i] as int < Utf16.Supplementary
    ensures ValidateName(field, name).None?
  {
    Utf16.BmpLength(name);
  }

  /** The `.catch` of a form. `constraintField` is the field that takes the "already exists"
      error; a form without one (the group form) never reads the reason and always shows the
      generic notice. */
  function CatchFeedback(reason: Option<JsError>, constraintField: Option<Field>): (r: Feedback)
    ensures constraintField.None? ==> r == SomethingWentWrong
    ensures constraintField.Some? ==>
              (r == Unhandled <==> reason.None?)
              && (r == FieldRejected(FieldError(constraintField.value, AlreadyExists)) <==>
                    reason.Some? && reason.value.name == ConstraintErrorName)
              && (r == SomethingWentWrong <==> reason.Some? && reason.value.name != ConstraintErrorName)
  {
    match constraintField
    case None => SomethingWentWrong
    case Some(f) =>
      match reason
      case None => Unhandled
      case Some(e) => if e.name == ConstraintErrorName then FieldRejected(FieldError(f, AlreadyExists))
                      else SomethingWentWrong
  }

  /** A loader settles successfully: the initial one always does, a connected one when the
      engine does not fail. */
  predicate LoaderSucceeds(loader: Loader, fault: Option<ErrorEvent>)
  {
    loader.ResolveEmpty? || (Connected(loader.store) && fault.None?)
  }

  // ---------------------------------------------------------------------------------------
  // The category form

  datatype CategorySubmit = CategorySubmit(feedback: Feedback, state: GlobalState,
                                           categories: map<string, SnippetCategory>,
                                           categoryName: string)

  /** `addCategory` behind validation: add `{name, snippets: []}`, reload the categories, then
      show the success notice and clear the name. */
  function SubmitCategory(st: GlobalState, categories: map<string, SnippetCategory>, categoryName: string,
                          addFault: Option<ErrorEvent>, loadFault: Option<ErrorEvent>): (r: CategorySubmit)
    ensures r.state == st.(snippetCategories := r.state.snippetCategories)
    ensures ValidateName(CategoryNameField, categoryName).Some? ==>
              r == CategorySubmit(Invalid([ValidateName(CategoryNameField, categoryName).value]), st, categories, categoryName)
    ensures r.feedback == Saved <==>
              && ValidateName(CategoryNameField, categoryName).None?
              && Connected(st.snippetCategoryStore) && addFault.None? && categoryName !in categories
              && LoaderSucceeds(st.loadSnippetCategory, loadFault)
    ensures r.feedback == Saved ==> r.categoryName == ""
    ensures r.feedback == Saved ==> r.categories == categories[categoryName := SnippetCategory(categoryName, [])]
    ensures r.feedback == Saved && st.loadSnippetCategory.Reload? ==>
              r.state.snippetCategories == Listing(r.categories, CategoryKey)
    ensures r.feedback != Saved ==> r.categoryName == categoryName
    ensures r.categories ==
              if ValidateName(CategoryNameField, categoryName).None? && Connected(st.snippetCategoryStore)
                 && addFault.None? && categoryName !in categories
              then categories[categoryName := SnippetCategory(categoryName, [])]
              else categories
    ensures r.feedback != Saved ==> r.state == st
    ensures ValidateName(CategoryNameField, categoryName).None? && Connected(st.snippetCategoryStore)
            && addFault.Some? ==>
              r.feedback == CatchFeedback(ParseError(addFault.value), Some(CategoryNameField))
    ensures ValidateName(CategoryNameField, categoryName).None? && ConnectedState(st)
            && addFault.None? && categoryName !in categories && loadFault.Some? ==>
              r.feedback == CatchFeedback(ParseError(loadFault.value), Some(CategoryNameField))
    ensures r.feedback == Saved && ConnectedState(st) ==>
              SnippetCategory(categoryName, []) in r.state.snippetCategories
    ensures ValidateName(CategoryNameField, categoryName).None? && !Connected(st.snippetCategoryStore) ==>
              r == CategorySubmit(Unhandled, st, categories, categoryName)
    ensures ValidateName(CategoryNameField, categoryName).None? && Connected(st.snippetCategoryStore)
            && addFault.None? && categoryName in categories ==>
              r.feedback == FieldRejected(FieldError(CategoryNameField, AlreadyExists)) && r.categories == categories
  {
    match ValidateName(CategoryNameField, categoryName)
    case Some(err) => CategorySubmit(Invalid([err]), st, categories, categoryName)
    case None =>
      var added := Add(st.snippetCategoryStore, CategoryKey, categories, SnippetCategory(categoryName, []), addFault);
      match added.outcome
      case Threw(_) => CategorySubmit(Unhandled, st, categories, categoryName)
      case Rejected(e) => CategorySubmit(CatchFeedback(e, Some(CategoryNameField)), st, added.after, categoryName)
      case Resolved(_) =>
        assert added.after[categoryName] == SnippetCategory(categoryName, []);
        var load := LoadSnippetCategory(st, added.after, loadFault);
        match load.outcome
        case Resolved(_) => CategorySubmit(Saved, load.state, added.after, "")
        case Rejected(e) => CategorySubmit(CatchFeedback(e, Some(CategoryNameField)), load.state, added.after, categoryName)
        case Threw(e) => CategorySubmit(CatchFeedback(Some(e), Some(CategoryNameField)), load.state, added.after, categoryName)
  }

  // ---------------------------------------------------------------------------------------
  // The group form

  datatype GroupSubmit = GroupSubmit(feedback: Feedback, state: GlobalState,
                                     groups: map<string, Group>, groupName: string)

  /** `addGroup` behind validation: add `{name}`, reload the groups, then show the success
      notice and clear the name. Every rejection, a duplicate name included, shows the generic
      notice. */
  function SubmitGroup(st: GlobalState, groups: map<string, Group>, groupName: string,
                       addFault: Option<ErrorEvent>, loadFault: Option<ErrorEvent>): (r: GroupSubmit)
    ensures r.state == st.(groups := r.state.groups)
    ensures ValidateName(GroupNameField, groupName).Some? ==>
              r == GroupSubmit(Invalid([ValidateName(GroupNameField, groupName).value]), st, groups, groupName)
    ensures r.feedback == Saved <==>
              && ValidateName(GroupNameField, groupName).None?
              && Connected(st.groupStore) && addFault.None? && groupName !in groups
              && LoaderSucceeds(st.loadGroups, loadFault)
    ensures r.feedback == Saved ==> r.groupName == ""
    ensures r.feedback == Saved ==> r.groups == groups[groupName := Group(groupName)]
    ensures r.feedback == Saved && st.loadGroups.Reload? ==> r.state.groups == Listing(r.groups, GroupKey)
    ensures r.feedback != Saved ==> r.groupName == groupName
    ensures r.groups ==
              if ValidateName(GroupNameField, groupName).None? && Connected(st.groupStore)
                 && addFault.None? && groupName !in groups
              then groups[groupName := Group(groupName)]
              else groups
    ensures r.feedback != Saved ==> r.state == st
    ensures r.feedback == Saved && ConnectedState(st) ==> Group(groupName) in r.state.groups
    ensures !r.feedback.FieldRejected?
    ensures r.feedback == Unhandled <==> ValidateName(GroupNameField, groupName).None? && !Connected(st.groupStore)
    ensures ValidateName(GroupNameField, groupName).None? && Connected(st.groupStore)
            && addFault.None? && groupName in groups ==>
              r.feedback == SomethingWentWrong && r.groups == groups
  {
    match ValidateName(GroupNameField, groupName)
    case Some(err) => GroupSubmit(Invalid([err]), st, groups, groupName)
    case None =>
      var added := Add(st.groupStore, GroupKey, groups, Group(groupName), addFault);
      match added.outcome
      case Threw(_) => GroupSubmit(Unhandled, st, groups, groupName)
      case Rejected(e) => GroupSubmit(CatchFeedback(e, None), st, added.after, groupName)
      case Resolved(_) =>
        assert added.after[groupName] == Group(groupName);
        var load := LoadGroups(st, added.after, loadFault);
        match load.outcome
        case Resolved(_) => GroupSubmit(Saved, load.state, added.after, "")
        case Rejected(e) => GroupSubmit(CatchFeedback(e, None), load.state, added.after, groupName)
        case Threw(e) => GroupSubmit(CatchFeedback(Some(e), None), load.state, added.after, groupName)
  }

  // ---------------------------------------------------------------------------------------
  // The snippet form

  /** The snippet form's values. */
  datatype SnippetForm = SnippetForm(snippetName: string, groupName: string, categoryName: string,
                                     contents: seq<SnippetContent>)

  /** `defaultValues`: empty names and one empty content block. */
  const DefaultSnippetForm := SnippetForm("", "", "", [SnippetContent("")])

  /** The values an edit payload loads into the form. */
  function FormFromEdit(e: EditSnippet): (r: SnippetForm)
    ensures r.snippetName == e.name && r.groupName == e.group
    ensures r.categoryName == e.category && r.contents == e.content
  {
    SnippetForm(e.name, e.group, e.category, e.content)
  }

  /** A required-error for every empty content block, from block `from` on. */
  function ContentErrors(contents: seq<SnippetContent>, from: nat): (r: seq<FieldError>)
    ensures |r| == 0 <==> forall i :: 0 <= i < |contents| ==> contents[i].value != ""
    ensures forall k :: 0 <= k < |r| ==>
              r[k].issue == Required && r[k].field.ContentField? && r[k].field.index >= from
    ensures forall i :: 0 <= i < |contents| ==>
              (FieldError(ContentField(from + i), Required) in r <==> contents[i].value == "")
    decreases |contents|
  {
    if |contents| == 0 then []
    else
      var rest := ContentErrors(contents[1..], from + 1);
      assert forall i :: 1 <= i < |contents| ==> contents[i] == contents[1..][i - 1];
      (if contents[0].value == "" then [FieldError(ContentField(from), Required)] else []) + rest
  }

  function Opt(e: Option<FieldError>): seq<FieldError>
  {
    match e
    case None => []
    case Some(x) => [x]
  }

  /** Every rule of the snippet form: the snippet name as a name field, the category and group
      required, and every content block required. */
  function ValidateSnippetForm(f: SnippetForm): (r: seq<FieldError>)
    ensures |r| == 0 <==>
              && 0 < Utf16.Length(f.snippetName) <= MaxNameLength
              && f.categoryName != "" && f.groupName != ""
              && forall i :: 0 <= i < |f.contents| ==> f.contents[i].value != ""
  {
    Opt(ValidateName(SnippetNameField, f.snippetName))
    + (if f.categoryName == "" then [FieldError(CategorySelectField, Required)] else [])
    + (if f.groupName == "" then [FieldError(GroupSelectField, Required)] else [])
    + ContentErrors(f.contents, 0)
  }

  datatype SnippetSubmit = SnippetSubmit(feedback: Feedback, state: GlobalState,
                                         categories: map<string, SnippetCategory>,
                                         form: SnippetForm, busy: bool, closeDialog: bool)

  /** The id of the snippet being edited, or None when creating. */
  function EditedId(editSnippet: Option<EditSnippet>): (r: Option<string>)
    ensures r.Some? <==> editSnippet.Some?
    ensures r.Some? ==> r.value == editSnippet.value.id
  {
    match editSnippet
    case None => None
    case Some(e) => Some(e.id)
  }

  /** The mutator the form hands to `findOneAndUpdate`. */
  function SnippetMutator(form: SnippetForm, editSnippet: Option<EditSnippet>, newId: string): (m: SnippetCategory -> SnippetCategory)
    ensures forall doc :: m(doc).name == doc.name
    ensures editSnippet.None? ==>
              forall doc :: m(doc).snippets == doc.snippets + [Snippet(newId, form.groupName, form.snippetName, form.contents)]
    ensures editSnippet.Some? ==>
              forall doc: SnippetCategory :: FirstIndexOf(doc.snippets, EditedId(editSnippet)).Some? ==>
                var i := FirstIndexOf(doc.snippets, EditedId(editSnippet)).value;
                |m(doc).snippets| == |doc.snippets|
                && m(doc).snippets[i] == Snippet(editSnippet.value.id, form.groupName, form.snippetName, form.contents)
                && forall j :: 0 <= j < |doc.snippets| && j != i ==> m(doc).snippets[j] == doc.snippets[j]
    ensures forall doc: SnippetCategory :: FirstIndexOf(doc.snippets, EditedId(editSnippet)).None? ==>
              m(doc).snippets == doc.snippets + [Snippet(newId, form.groupName, form.snippetName, form.contents)]
  {
    doc => UpsertSnippet(doc, EditedId(editSnippet), newId, form.groupName, form.snippetName, form.contents)
  }

  /** `addSnippet` behind validation: upsert into the chosen category through
      `findOneAndUpdate`, reload the categories, then show the success notice, reset the form
      and, when editing, close the dialog. `busy` (the disabled buttons) is set on submit and
      cleared only on success. `newId` stands for `String(Date.now())`. */
  function SubmitSnippet(st: GlobalState, categories: map<string, SnippetCategory>, form: SnippetForm,
                         editSnippet: Option<EditSnippet>, newId: string,
                         readFault: Option<ErrorEvent>, writeFault: Option<ErrorEvent>,
                         loadFault: Option<ErrorEvent>): (r: SnippetSubmit)
    ensures r.state == st.(snippetCategories := r.state.snippetCategories)
    ensures |ValidateSnippetForm(form)| > 0 ==>
              r == SnippetSubmit(Invalid(ValidateSnippetForm(form)), st, categories, form, false, false)
    ensures r.feedback == Saved <==>
              && |ValidateSnippetForm(form)| == 0
              && Connected(st.snippetCategoryStore) && readFault.None? && writeFault.None?
              && form.categoryName in categories
              && LoaderSucceeds(st.loadSnippetCategory, loadFault)
    ensures r.feedback == Saved ==>
              r.form == DefaultSnippetForm && !r.busy && r.closeDialog == editSnippet.Some?
    ensures r.feedback == Saved ==>
              r.categories == categories[categories[form.categoryName].name :=
                UpsertSnippet(categories[form.categoryName], EditedId(editSnippet), newId,
                              form.groupName, form.snippetName, form.contents)]
    ensures r.feedback == Saved && st.loadSnippetCategory.Reload? ==>
              r.state.snippetCategories == Listing(r.categories, CategoryKey)
    ensures !r.feedback.Saved? && !r.feedback.Invalid? ==> r.form == form && r.busy && !r.closeDialog
    ensures r.categories ==
              if |ValidateSnippetForm(form)| == 0 && Connected(st.snippetCategoryStore)
                 && readFault.None? && writeFault.None? && form.categoryName in categories
              then categories[categories[form.categoryName].name :=
                     UpsertSnippet(categories[form.categoryName], EditedId(editSnippet), newId,
                                   form.groupName, form.snippetName, form.contents)]
              else categories
    ensures r.feedback != Saved ==> r.state == st
    ensures |ValidateSnippetForm(form)| == 0 && Connected(st.snippetCategoryStore) && readFault.Some? ==>
              r.feedback == CatchFeedback(ParseError(readFault.value), Some(SnippetNameField))
    ensures |ValidateSnippetForm(form)| == 0 && Connected(st.snippetCategoryStore) && readFault.None?
            && form.categoryName in categories && writeFault.Some? ==>
              r.feedback == CatchFeedback(ParseError(writeFault.value), Some(SnippetNameField))
    ensures |ValidateSnippetForm(form)| == 0 && ConnectedState(st) && readFault.None? && writeFault.None?
            && form.categoryName in categories && loadFault.Some? ==>
              r.feedback == CatchFeedback(ParseError(loadFault.value), Some(SnippetNameField))
    ensures |ValidateSnippetForm(form)| == 0 && Connected(st.snippetCategoryStore) && readFault.None?
            && form.categoryName !in categories ==>
              r.feedback == SomethingWentWrong && r.categories == categories
    ensures r.feedback == Unhandled ==> r.state == st
  {
    var errors := ValidateSnippetForm(form);
    if |errors| > 0 then SnippetSubmit(Invalid(errors), st, categories, form, false, false)
    else
      var u := FindOneAndUpdate(st.snippetCategoryStore, CategoryKey, categories, form.categoryName,
                                SnippetMutator(form, editSnippet, newId), readFault, writeFault);
      match u.outcome
      case Threw(_) => SnippetSubmit(Unhandled, st, categories, form, true, false)
      case Rejected(e) => SnippetSubmit(CatchFeedback(e, Some(SnippetNameField)), st, u.after, form, true, false)
      case Resolved(_) =>
        var load := LoadSnippetCategory(st, u.after, loadFault);
        match load.outcome
        case Resolved(_) => SnippetSubmit(Saved, load.state, u.after, DefaultSnippetForm, false, editSnippet.Some?)
        case Rejected(e) => SnippetSubmit(CatchFeedback(e, Some(SnippetNameField)), load.state, u.after, form, true, false)
        case Threw(e) => SnippetSubmit(CatchFeedback(Some(e), Some(SnippetNameField)), load.state, u.after, form, true, false)
  }

  // ---------------------------------------------------------------------------------------
  // The delete button of a snippet card

  /** The notice a delete shows, by severity; both wordings are the same text. */
  datatype Notice = SuccessNotice | ErrorNotice | NoNotice

  datatype DeleteClick = DeleteClick(notice: Notice, state: GlobalState,
                                     categories: map<string, SnippetCategory>)

  /** `handleDeleteClick`: filter the snippet out of its category through `findOneAndUpdate`,
      reload the categories, then show the success notice. The catch handler never reads the
      reason, so every rejection, a null one included, shows the error notice; a synchronous
      throw of the store escapes it and no notice shows. */
  function ClickDelete(st: GlobalState, categories: map<string, SnippetCategory>, category: string,
                       id: string, readFault: Option<ErrorEvent>, writeFault: Option<ErrorEvent>,
                       loadFault: Option<ErrorEvent>): (r: DeleteClick)
    ensures r.state == st.(snippetCategories := r.state.snippetCategories)
    ensures r.notice == SuccessNotice <==>
              && Connected(st.snippetCategoryStore) && readFault.None? && writeFault.None?
              && category in categories
              && LoaderSucceeds(st.loadSnippetCategory, loadFault)
    ensures r.notice == NoNotice <==> !Connected(st.snippetCategoryStore)
    ensures r.notice == NoNotice ==> r == DeleteClick(NoNotice, st, categories)
    ensures r.categories ==
              if Connected(st.snippetCategoryStore) && readFault.None? && writeFault.None? && category in categories
              then categories[categories[category].name := DeleteSnippet(categories[category], id)]
              else categories
    ensures r.notice != SuccessNotice ==> r.state == st
    ensures r.notice == SuccessNotice ==>
              r.categories == categories[categories[category].name := DeleteSnippet(categories[category], id)]
    ensures r.notice == SuccessNotice && st.loadSnippetCategory.Reload? ==>
              r.state.snippetCategories == Listing(r.categories, CategoryKey)
    ensures r.notice == SuccessNotice && WellKeyed(categories, CategoryKey) ==>
              category in r.categories
              && (forall s :: s in r.categories[category].snippets <==>
                                s in categories[category].snippets && s.id != id)
  {
    var u := FindOneAndUpdate(st.snippetCategoryStore, CategoryKey, categories, category,
                              doc => DeleteSnippet(doc, id), readFault, writeFault);
    match u.outcome
    case Threw(_) => DeleteClick(NoNotice, st, categories)
    case Rejected(_) => DeleteClick(ErrorNotice, st, u.after)
    case Resolved(_) =>
      var load := LoadSnippetCategory(st, u.after, loadFault);
      if load.outcome.Resolved? then DeleteClick(SuccessNotice, load.state, u.after)
      else DeleteClick(ErrorNotice, load.state, u.after)
  }

  // ---------------------------------------------------------------------------------------
  // Properties across the forms, the store and the session

  /** Before the connection, a valid submit of any form throws inside the store, so nothing is
      written, nothing is cached and no feedback shows. */
  lemma SubmitsBeforeConnectionAreUnhandled(groups: map<string, Group>, categories: map<string, SnippetCategory>,
                                            name: string, form: SnippetForm,
                                            editSnippet: Option<EditSnippet>, newId: string,
                                            f1: Option<ErrorEvent>, f2: Option<ErrorEvent>, f3: Option<ErrorEvent>)
    requires 0 < Utf16.Length(name) <= MaxNameLength
    requires |ValidateSnippetForm(form)| == 0
    ensures SubmitCategory(DefaultGlobal, categories, name, f1, f2) == CategorySubmit(Unhandled, DefaultGlobal, categories, name)
    ensures SubmitGroup(DefaultGlobal, groups, name, f1, f2) == GroupSubmit(Unhandled, DefaultGlobal, groups, name)
    ensures SubmitSnippet(DefaultGlobal, categories, form, editSnippet, newId, f1, f2, f3)
            == SnippetSubmit(Unhandled, DefaultGlobal, categories, form, true, false)
  {
  }

  /** Opening a snippet for edit and submitting the form unchanged saves, leaves the stored
      categories as they were, resets the form and closes the dialog. */
  lemma UnchangedEditKeepsCategory(st: GlobalState, categories: map<string, SnippetCategory>,
                                   category: string, i: nat, newId: string)
    requires ConnectedState(st)
    requires WellKeyed(categories, CategoryKey)
    requires category in categories && i < |categories[category].snippets|
    requires var s := categories[category].snippets[i];
             FirstIndexOf(categories[category].snippets, Some(s.id)) == Some(i)
    requires var s := categories[category].snippets[i];
             |ValidateSnippetForm(FormFromEdit(ToEditSnippet(s, category)))| == 0
    ensures var s := categories[category].snippets[i];
            var edit := ToEditSnippet(s, category);
            var r := SubmitSnippet(st, categories, FormFromEdit(edit), Some(edit), newId, None, None, None);
            r.feedback == Saved && r.categories == categories
            && r.form == DefaultSnippetForm && r.closeDialog
  {
    var doc := categories[category];
    var s := doc.snippets[i];
    var edit := ToEditSnippet(s, category);
    UpsertOwnFieldsIsIdentity(doc, i, newId);
    assert categories[doc.name := doc] == categories;
  }

  /** A new category, then a snippet created in it: the stored category holds exactly that one
      snippet, with the id the form was given. */
  lemma NewCategoryThenSnippet(st: GlobalState, categories: map<string, SnippetCategory>)
    requires ConnectedState(st)
    requires "Snippets1" !in categories
    ensures var c := SubmitCategory(st, categories, "Snippets1", None, None);
            var form := SnippetForm("s1", "Common", "Snippets1", [SnippetContent("echo hi")]);
            var s := SubmitSnippet(c.state, c.categories, form, None, "1", None, None, None);
            c.feedback == Saved && s.feedback == Saved
            && s.categories["Snippets1"].snippets == [Snippet("1", "Common", "s1", [SnippetContent("echo hi")])]
  {
    var c := SubmitCategory(st, categories, "Snippets1", None, None);
    assert c.categories == categories["Snippets1" := SnippetCategory("Snippets1", [])];
    var form := SnippetForm("s1", "Common", "Snippets1", [SnippetContent("echo hi")]);
    assert |ValidateSnippetForm(form)| == 0;
    assert ConnectedState(c.state);
    var doc := c.categories["Snippets1"];
    assert FirstIndexOf(doc.snippets, None).None?;
  }

  /** Creating a snippet under a fresh id and then deleting it from its card gives back the
      stored categories as they were, and both steps report success. */
  lemma CreateThenDeleteRestores(st: GlobalState, categories: map<string, SnippetCategory>,
                                 form: SnippetForm, newId: string)
    requires ConnectedState(st)
    requires WellKeyed(categories, CategoryKey)
    requires |ValidateSnippetForm(form)| == 0
    requires form.categoryName in categories
    requires forall j :: 0 <= j < |categories[form.categoryName].snippets| ==>
               categories[form.categoryName].snippets[j].id != newId
    ensures var s := SubmitSnippet(st, categories, form, None, newId, None, None, None);
            var d := ClickDelete(s.state, s.categories, form.categoryName, newId, None, None, None);
            s.feedback == Saved && d.notice == SuccessNotice && d.categories == categories
  {
    var c := form.categoryName;
    var doc := categories[c];
    var upserted := UpsertSnippet(doc, None, newId, form.groupName, form.snippetName, form.contents);
    var s := SubmitSnippet(st, categories, form, None, newId, None, None, None);
    CreateSaves(st, categories, form, newId);
    DeleteSucceeds(s.state, s.categories, c, newId);
    UpsertThenDeleteRestores(doc, None, newId, form.groupName, form.snippetName, form.contents);
    UpdateThenRestore(categories, c, upserted, DeleteSnippet(upserted, newId));
  }

  /** Writing a key and then writing back its old value leaves a map as it was. */
  lemma UpdateThenRestore<K, V>(m: map<K, V>, k: K, v: V, w: V)
    requires k in m && w == m[k]
    ensures m[k := v][k := w] == m
  {
  }

  lemma CreateSaves(st: GlobalState, categories: map<string, SnippetCategory>, form: SnippetForm, newId: string)
    requires ConnectedState(st)
    requires WellKeyed(categories, CategoryKey)
    requires |ValidateSnippetForm(form)| == 0
    requires form.categoryName in categories
    ensures var s := SubmitSnippet(st, categories, form, None, newId, None, None, None);
            var doc := categories[form.categoryName];
            s.feedback == Saved && ConnectedState(s.state)
            && s.categories == categories[form.categoryName :=
                 UpsertSnippet(doc, None, newId, form.groupName, form.snippetName, form.contents)]
            && WellKeyed(s.categories, CategoryKey)
  {
    var s := SubmitSnippet(st, categories, form, None, newId, None, None, None);
    assert s.feedback == Saved;
    assert ConnectedState(s.state);
  }

  lemma DeleteSucceeds(st: GlobalState, categories: map<string, SnippetCategory>, category: string, id: string)
    requires ConnectedState(st)
    requires WellKeyed(categories, CategoryKey)
    requires category in categories
    ensures var d := ClickDelete(st, categories, category, id, None, None, None);
            d.notice == SuccessNotice
            && d.categories == categories[category := DeleteSnippet(categories[category], id)]
  {
  }
}

=== FILE: key_order.dfy ===
/** The order in which the storage engine keeps string keys: lexicographic by UTF-16 code
    unit, a proper prefix before every longer key. `getAll` lists a collection in this order. */
module KeyOrder {
  import Utf16

  /** Strict lexicographic order on code-unit sequences. */
  predicate UnitsBelow(a: seq<int>, b: seq<int>)
    decreases |a|
  {
    if |a| == 0 then |b| > 0
    else if |b| == 0 then false
    else if a[0] != b[0] then a[0] < b[0]
    else UnitsBelow(a[1..], b[1..])
  }

  lemma {:induction false} UnitsBelowIrreflexive(a: seq<int>)
    ensures !UnitsBelow(a, a)
    decreases |a|
  {
    if |a| > 0 {
      UnitsBelowIrreflexive(a[1..]);
    }
  }

  lemma {:induction false} UnitsBelowTransitive(a: seq<int>, b: seq<int>, c: seq<int>)
    requires UnitsBelow(a, b) && UnitsBelow(b, c)
    ensures UnitsBelow(a, c)
    decreases |a|
  {
    if |a| > 0 && a[0] == b[0] && b[0] == c[0] {
      UnitsBelowTransitive(a[1..], b[1..], c[1..]);
    }
  }

  lemma {:induction false} UnitsBelowTotal(a: seq<int>, b: seq<int>)
    requires a != b
    ensures UnitsBelow(a, b) || UnitsBelow(b, a)
    decreases |a|
  {
    if |a| > 0 && |b| > 0 && a[0] == b[0] {
      assert a == [a[0]] + a[1..] && b == [b[0]] + b[1..];
      UnitsBelowTotal(a[1..], b[1..]);
    }
  }

  /** The engine's order on string keys: compare their UTF-16 code units. */
  predicate Below(a: string, b: string)
  {
    UnitsBelow(Utf16.Encode(a), Utf16.Encode(b))
  }

  lemma BelowIrreflexive(a: string)
    ensures !Below(a, a)
  {
    UnitsBelowIrreflexive(Utf16.Encode(a));
  }

  lemma BelowTransitive(a: string, b: string, c: string)
    requires Below(a, b) && Below(b, c)
    ensures Below(a, c)
  {
    UnitsBelowTransitive(Utf16.Encode(a), Utf16.Encode(b), Utf16.Encode(c));
  }

  lemma BelowTotal(a: string, b: string)
    requires a != b
    ensures Below(a, b) || Below(b, a)
  {
    if Utf16.Encode(a) == Utf16.Encode(b) {
      Utf16.EncodeInjective(a, b);
    }
    UnitsBelowTotal(Utf16.Encode(a), Utf16.Encode(b));
  }

  lemma BelowAsymmetric(a: string, b: string)
    requires Below(a, b)
    ensures !Below(b, a)
  {
    if Below(b, a) {
      BelowTransitive(a, b, a);
      BelowIrreflexive(a);
    }
  }

  /** A common prefix does not change how two code-unit sequences compare. */
  lemma {:induction false} UnitsBelowCommonPrefix(p: seq<int>, x: seq<int>, y: seq<int>)
    ensures UnitsBelow(p + x, p + y) == UnitsBelow(x, y)
    decreases |p|
  {
    if |p| > 0 {
      assert (p + x)[1..] == p[1..] + x && (p + y)[1..] == p[1..] + y;
      UnitsBelowCommonPrefix(p[1..], x, y);
    } else {
      assert p + x == x && p + y == y;
    }
  }

  /** Two keys that agree up to a character above U+FFFF in one and a character in
      U+E000–U+FFFF in the other: the first sorts first, whatever follows, because its high
      surrogate is the smaller code unit, although its code point is the larger. */
  lemma SurrogatesSortBeforeHighBmp(p: string, c: char, d: char, a: string, b: string)
    requires c as int >= Utf16.Supplementary
    requires 0xE000 <= d as int < Utf16.Supplementary
    ensures Below(p + [c] + a, p + [d] + b)
    ensures d as int < c as int
  {
    assert p + [c] + a == p + ([c] + a) && p + [d] + b == p + ([d] + b);
    Utf16.EncodeAppend(p, [c] + a);
    Utf16.EncodeAppend(p, [d] + b);
    UnitsBelowCommonPrefix(Utf16.Encode(p), Utf16.Encode([c] + a), Utf16.Encode([d] + b));
    assert ([c] + a)[1..] == a && ([d] + b)[1..] == b;
    assert Utf16.Encode([c] + a)[0] == Utf16.Units(c)[0] < Utf16.LowSurrogateBase;
    assert Utf16.Encode([d] + b)[0] == d as int;
  }

  /** `k` is the smallest key of `ks`. */
  predicate IsLeast(k: string, ks: set<string>)
  {
    k in ks && forall j :: j in ks && j != k ==> Below(k, j)
  }

  lemma {:induction false} LeastExists(ks: set<string>)
    requires ks != {}
    ensures exists k :: IsLeast(k, ks)
    decreases |ks|
  {
    var x :| x in ks;
    if ks == {x} {
      assert IsLeast(x, ks);
    } else {
      LeastExists(ks - {x});
      var m :| IsLeast(m, ks - {x});
      if Below(x, m) {
        forall j | j in ks && j != x
          ensures Below(x, j)
        {
          if j != m {
            BelowTransitive(x, m, j);
          }
        }
        assert IsLeast(x, ks);
      } else {
        BelowTotal(x, m);
        assert IsLeast(m, ks);
      }
    }
  }

  lemma LeastUnique(ks: set<string>)
    ensures forall k, k' :: IsLeast(k, ks) && IsLeast(k', ks) ==> k == k'
  {
    forall k, k' | IsLeast(k, ks) && IsLeast(k', ks)
      ensures k == k'
    {
      if k != k' {
        BelowAsymmetric(k, k');
      }
    }
  }

  /** The smallest key of a non-empty set. */
  function Least(ks: set<string>): (k: string)
    requires ks != {}
    ensures k in ks
    ensures forall j :: j in ks && j != k ==> Below(k, j)
  {
    LeastExists(ks);
    LeastUnique(ks);
    var k :| IsLeast(k, ks);
    k
  }

  /** Strictly ascending, hence also free of duplicates. */
  ghost predicate Ascending(s: seq<string>)
  {
    forall i, j :: 0 <= i < j < |s| ==> Below(s[i], s[j])
  }

  /** The keys of a collection in the order the engine enumerates them. */
  function SortedKeys(ks: set<string>): (r: seq<string>)
    ensures |r| == |ks|
    ensures forall k :: k in r <==> k in ks
    ensures Ascending(r)
    decreases |ks|
  {
    if ks == {} then []
    else
      var k := Least(ks);
      var rest := SortedKeys(ks - {k});
      assert forall i :: 0 <= i < |rest| ==> Below(k, rest[i]) by {
        forall i | 0 <= i < |rest| ensures Below(k, rest[i]) {
          assert rest[i] in ks - {k};
        }
      }
      [k] + rest
  }

  /** Every document sits under its own key. */
  ghost predicate WellKeyed<D>(m: map<string, D>, key: D -> string)
  {
    forall k :: k in m ==> key(m[k]) == k
  }

  /** The documents of a collection, listed in ascending key order. */
  function Listing<D(==)>(m: map<string, D>, ghost key: D -> string): (r: seq<D>)
    ensures |r| == |m|
    ensures forall i :: 0 <= i < |r| ==> r[i] in m.Values
    ensures forall k :: k in m ==> m[k] in r
    ensures WellKeyed(m, key) ==> forall i, j :: 0 <= i < j < |r| ==> Below(key(r[i]), key(r[j]))
  {
    var ks := SortedKeys(m.Keys);
    LookupCovers(m, ks);
    LookupAscending(m, key, ks);
    Lookup(m, ks)
  }

  lemma LookupCovers<D>(m: map<string, D>, ks: seq<string>)
    requires forall k :: k in ks <==> k in m
    ensures forall i :: 0 <= i < |ks| ==> Lookup(m, ks)[i] in m.Values
    ensures forall k :: k in m ==> m[k] in Lookup(m, ks)
  {
    var r := Lookup(m, ks);
    forall k | k in m ensures m[k] in r {
      assert r[IndexOf(ks, k)] == m[k];
    }
  }

  lemma LookupAscending<D>(m: map<string, D>, key: D -> string, ks: seq<string>)
    requires forall k :: k in ks ==> k in m
    requires Ascending(ks)
    ensures WellKeyed(m, key) ==>
              forall i, j :: 0 <= i < j < |ks| ==> Below(key(Lookup(m, ks)[i]), key(Lookup(m, ks)[j]))
  {
    var r := Lookup(m, ks);
    if WellKeyed(m, key) {
      forall i, j | 0 <= i < j < |r| ensures Below(key(r[i]), key(r[j])) {
        assert key(r[i]) == ks[i] && key(r[j]) == ks[j];
      }
    }
  }

  /** The documents stored under `ks`, in that order. */
  function Lookup<D>(m: map<string, D>, ks: seq<string>): (r: seq<D>)
    requires forall k :: k in ks ==> k in m
    ensures |r| == |ks|
    ensures forall i :: 0 <= i < |ks| ==> r[i] == m[ks[i]]
  {
    if ks == [] then [] else [m[ks[0]]] + Lookup(m, ks[1..])
  }

  /** Where `k` sits in `ks`. */
  function IndexOf(ks: seq<string>, k: string): (i: nat)
    requires k in ks
    ensures i < |ks| && ks[i] == k
  {
    if ks[0] == k then 0 else 1 + IndexOf(ks[1..], k)
  }
}

=== FILE: models.dfy ===
/** The persisted documents: `IGroup`, `SnippetContent`, `ISnippet`, `ISnippetCategory`,
    and the edit payload `IEditSnippet`. */
module Models {

  /** A document of the `groups` collection; its key is `name`. */
  datatype Group = Group(name: string)

  /** One block of a snippet's text. */
  datatype SnippetContent = SnippetContent(value: string)

  /** A snippet, embedded in exactly one category. `group` refers to a group's name softly. */
  datatype Snippet = Snippet(id: string, group: string, name: string, content: seq<SnippetContent>)

  /** A document of the `snippetCategories` collection; its key is `name`. */
  datatype SnippetCategory = SnippetCategory(name: string, snippets: seq<Snippet>)

  /** A snippet together with the name of the category that owns it. */
  datatype EditSnippet = EditSnippet(id: string, group: string, name: string,
                                     content: seq<SnippetContent>, category: string)

  /** The key path (`name`) of each collection. */
  function GroupKey(g: Group): string { g.name }

  function CategoryKey(c: SnippetCategory): string { c.name }
}

=== FILE: outcomes.dfy ===
/** Values that stand in for JavaScript's `undefined`/`null`, its Error objects and its promises. */
module Outcomes {

  /** `T | undefined` (or `T | null`). */
  datatype Option<+T> = None | Some(value: T)

  /** A JavaScript Error object, as the callers inspect it: its `name` and its `message`. */
  datatype JsError = JsError(name: string, message: string)

  /** How a call that returns a promise ends.
      - Resolved: the promise fulfils with `value`.
      - Rejected: the promise rejects; the reason is an Error or `null` (None).
      - Threw: the call throws synchronously, before any promise exists. */
  datatype Completion<+T> =
    | Resolved(value: T)
    | Rejected(reason: Option<JsError>)
    | Threw(error: JsError)
}

=== FILE: session.dfy ===
/** The application session: the global state handed to the components (its initial,
    disconnected value and its connected value), the schema step of the open handshake, the
    connection state, the cache loaders, and the dialog state. */
module Session {
  import opened Outcomes
  import opened Models
  import opened Store
  import opened KeyOrder

  /** The names of the two object stores. They stand in for the constants of the configuration
      file, which is not part of this model. */
  const GroupCollection := "groups"
  const SnippetCategoryCollection := "snippetCategories"

  /** The group every fresh database starts with. */
  const CommonGroup := Group("Common")

  /** The dialog names the menu and the edit button use. */
  const AddSnippetDialog := "add_snippet"

  datatype DbState = Connecting | Ready | Error | OldVersionError

  /** A cache loader: the initial one resolves `[]` and touches nothing; the connected one
      re-reads the whole collection through its store and replaces the cached copy. */
  datatype Loader = ResolveEmpty | Reload(store: Store)

  /** `IGlobalProviderState`: both stores, both cached collections and both loaders. */
  datatype GlobalState = GlobalState(groupStore: Store, snippetCategoryStore: Store,
                                     groups: seq<Group>, snippetCategories: seq<SnippetCategory>,
                                     loadGroups: Loader, loadSnippetCategory: Loader)

  /** `defaultGlobalValue`: bare base stores, empty caches, loaders that resolve `[]`. */
  const DefaultGlobal := GlobalState(BaseStore, BaseStore, [], [], ResolveEmpty, ResolveEmpty)

  /** The state once the handshake has succeeded: stores bound to the two object stores of an
      open connection, each loader re-reading through its own store. */
  ghost predicate ConnectedState(st: GlobalState)
  {
    && Connected(st.groupStore) && st.groupStore.storeName == GroupCollection
    && Connected(st.snippetCategoryStore) && st.snippetCategoryStore.storeName == SnippetCategoryCollection
    && st.loadGroups == Reload(st.groupStore)
    && st.loadSnippetCategory == Reload(st.snippetCategoryStore)
  }

  // ---------------------------------------------------------------------------------------
  // The initial state

  /** Before the connection, every store call throws "Method not implemented.", whatever the
      collection, and both caches are empty. */
  lemma DefaultStoresAlwaysFail(groups: map<string, Group>, categories: map<string, SnippetCategory>,
                                g: Group, c: SnippetCategory, id: string,
                                mg: Group -> Group, mc: SnippetCategory -> SnippetCategory,
                                f: Option<ErrorEvent>, f2: Option<ErrorEvent>)
    ensures DefaultGlobal.groups == [] && DefaultGlobal.snippetCategories == []
    ensures Add(DefaultGlobal.groupStore, GroupKey, groups, g, f) == Step(Threw(NotImplemented), groups)
    ensures FindAll(DefaultGlobal.groupStore, groups, GroupKey, f) == Threw(NotImplemented)
    ensures FindByKey(DefaultGlobal.groupStore, groups, id, f) == Threw(NotImplemented)
    ensures FindOneAndUpdate(DefaultGlobal.groupStore, GroupKey, groups, id, mg, f, f2)
            == UpdateStep(Threw(NotImplemented), groups, [])
    ensures Update(DefaultGlobal.groupStore, GroupKey, groups, g, f) == Step(Threw(NotImplemented), groups)
    ensures Delete(DefaultGlobal.groupStore, groups, id, f) == Step(Threw(NotImplemented), groups)
    ensures Add(DefaultGlobal.snippetCategoryStore, CategoryKey, categories, c, f) == Step(Threw(NotImplemented), categories)
    ensures FindAll(DefaultGlobal.snippetCategoryStore, categories, CategoryKey, f) == Threw(NotImplemented)
    ensures FindByKey(DefaultGlobal.snippetCategoryStore, categories, id, f) == Threw(NotImplemented)
    ensures FindOneAndUpdate(DefaultGlobal.snippetCategoryStore, CategoryKey, categories, id, mc, f, f2)
            == UpdateStep(Threw(NotImplemented), categories, [])
    ensures Update(DefaultGlobal.snippetCategoryStore, CategoryKey, categories, c, f) == Step(Threw(NotImplemented), categories)
    ensures Delete(DefaultGlobal.snippetCategoryStore, categories, id, f) == Step(Threw(NotImplemented), categories)
  {
  }

  // ---------------------------------------------------------------------------------------
  // Loaders

  /** The result of a loader and the global state after it. */
  datatype Load<T> = Load(outcome: Completion<T>, state: GlobalState)

  /** Runs an async loader body: a synchronous throw inside it becomes a rejection. */
  function RunLoader<D(==)>(loader: Loader, c: map<string, D>, ghost key: D -> string,
                            fault: Option<ErrorEvent>): (r: Completion<seq<D>>)
    ensures !r.Threw?
    ensures loader.ResolveEmpty? ==> r == Resolved([])
    ensures loader.Reload? ==> (r.Resolved? <==> Connected(loader.store) && fault.None?)
    ensures loader.Reload? && r.Resolved? ==> r.value == Listing(c, key)
    ensures loader.Reload? && !Connected(loader.store) ==> r == Rejected(Some(Guard(loader.store).value))
    ensures loader.Reload? && Connected(loader.store) && fault.Some? ==> r == Rejected(ParseError(fault.value))
  {
    match loader
    case ResolveEmpty => Resolved([])
    case Reload(store) =>
      match FindAll(store, c, key, fault)
      case Threw(e) => Rejected(Some(e))
      case other => other
  }

  /** `loadGroups`: replaces the cached groups on success and nothing else, ever. */
  function LoadGroups(st: GlobalState, groups: map<string, Group>, fault: Option<ErrorEvent>): (r: Load<seq<Group>>)
    ensures r.state == st.(groups := r.state.groups)
    ensures !r.outcome.Threw?
    ensures st.loadGroups.ResolveEmpty? ==> r == Load(Resolved([]), st)
    ensures st.loadGroups.Reload? && r.outcome.Resolved? ==>
              r.state.groups == r.outcome.value == Listing(groups, GroupKey)
    ensures !r.outcome.Resolved? ==> r.state == st
  {
    var out := RunLoader(st.loadGroups, groups, GroupKey, fault);
    if out.Resolved? && st.loadGroups.Reload? then Load(out, st.(groups := out.value))
    else Load(out, st)
  }

  /** `loadSnippetCategory`: replaces the cached categories on success and nothing else, ever. */
  function LoadSnippetCategory(st: GlobalState, categories: map<string, SnippetCategory>,
                               fault: Option<ErrorEvent>): (r: Load<seq<SnippetCategory>>)
    ensures r.state == st.(snippetCategories := r.state.snippetCategories)
    ensures !r.outcome.Threw?
    ensures st.loadSnippetCategory.ResolveEmpty? ==> r == Load(Resolved([]), st)
    ensures st.loadSnippetCategory.Reload? && r.outcome.Resolved? ==>
              r.state.snippetCategories == r.outcome.value == Listing(categories, CategoryKey)
    ensures !r.outcome.Resolved? ==> r.state == st
  {
    var out := RunLoader(st.loadSnippetCategory, categories, CategoryKey, fault);
    if out.Resolved? && st.loadSnippetCategory.Reload? then Load(out, st.(snippetCategories := out.value))
    else Load(out, st)
  }

  // ---------------------------------------------------------------------------------------
  // The schema step

  /** The object stores of the database, each present or not. */
  datatype Database = Database(groups: Option<map<string, Group>>,
                               snippetCategories: Option<map<string, SnippetCategory>>)

  /** `onupgradeneeded`: create each object store only when it is missing; a new `groups`
      store is seeded with the Common group, a new `snippetCategories` store starts empty. */
  function UpgradeSchema(db: Database): (r: Database)
    ensures r.groups.Some? && r.snippetCategories.Some?
    ensures db.groups.Some? ==> r.groups == db.groups
    ensures db.snippetCategories.Some? ==> r.snippetCategories == db.snippetCategories
    ensures db.groups.None? ==> r.groups.value.Keys == {CommonGroup.name}
                                && r.groups.value[CommonGroup.name] == CommonGroup
    ensures db.snippetCategories.None? ==> |r.snippetCategories.value| == 0
  {
    var groups := if db.groups.None? then Some(map[][CommonGroup.name := CommonGroup]) else db.groups;
    var categories := if db.snippetCategories.None? then Some(map[]) else db.snippetCategories;
    Database(groups, categories)
  }

  /** Running the schema step again changes nothing; on a database that has both stores it
      changes nothing the first time either. */
  lemma UpgradeSchemaIdempotent(db: Database)
    ensures UpgradeSchema(UpgradeSchema(db)) == UpgradeSchema(db)
    ensures db.groups.Some? && db.snippetCategories.Some? ==> UpgradeSchema(db) == db
  {
  }

  /** The schema step leaves every document under its own key. */
  lemma UpgradeSchemaWellKeyed(db: Database)
    requires db.groups.Some? ==> WellKeyed(db.groups.value, GroupKey)
    requires db.snippetCategories.Some? ==> WellKeyed(db.snippetCategories.value, CategoryKey)
    ensures WellKeyed(UpgradeSchema(db).groups.value, GroupKey)
    ensures WellKeyed(UpgradeSchema(db).snippetCategories.value, CategoryKey)
  {
  }

  /** A fresh database seeded by the schema step, after `add({name: "Work"})`, lists the seed
      and then the new group. */
  lemma SeedThenAddListsBoth(conn: Connection)
    ensures var groups := UpgradeSchema(Database(None, None)).groups.value;
            var store := IndexedDBStore(GroupCollection, Some(conn));
            var added := Add(store, GroupKey, groups, Group("Work"), None);
            added.outcome == Resolved(Group("Work"))
            && FindAll(store, added.after, GroupKey, None) == Resolved([CommonGroup, Group("Work")])
  {
    var groups := UpgradeSchema(Database(None, None)).groups.value;
    assert groups == map["Common" := CommonGroup];
    var store := IndexedDBStore(GroupCollection, Some(conn));
    SeedAddsWork(store, groups);
    SeededWithWork(groups, groups["Work" := Group("Work")]);
    ListsSeedAndWork(store, groups["Work" := Group("Work")]);
  }

  lemma SeedAddsWork(store: Store, groups: map<string, Group>)
    requires Connected(store)
    requires groups == map["Common" := CommonGroup]
    ensures Add(store, GroupKey, groups, Group("Work"), None)
            == Step(Resolved(Group("Work")), groups["Work" := Group("Work")])
  {
    assert "Work" !in groups;
  }

  lemma ListsSeedAndWork(store: Store, after: map<string, Group>)
    requires Connected(store)
    requires |after| == 2 && forall v :: v in after.Values ==> v == CommonGroup || v == Group("Work")
    requires WellKeyed(after, GroupKey)
    ensures FindAll(store, after, GroupKey, None) == Resolved([CommonGroup, Group("Work")])
  {
    var xs := Listing(after, GroupKey);
    assert FindAll(store, after, GroupKey, None) == Resolved(xs);
    assert |xs| == 2;
    assert xs[0] in after.Values && xs[1] in after.Values;
    assert Below(GroupKey(xs[0]), GroupKey(xs[1]));
    ListingOfTwo(xs);
  }

  lemma SeededWithWork(groups: map<string, Group>, after: map<string, Group>)
    requires groups == map["Common" := CommonGroup]
    requires after == groups["Work" := Group("Work")]
    ensures |after| == 2
    ensures forall v :: v in after.Values ==> v == CommonGroup || v == Group("Work")
    ensures WellKeyed(after, GroupKey)
  {
    assert after.Keys == {"Common", "Work"};
    forall v | v in after.Values ensures v == CommonGroup || v == Group("Work") {
      var k :| k in after && after[k] == v;
    }
  }

  lemma ListingOfTwo(xs: seq<Group>)
    requires |xs| == 2
    requires xs[0] == CommonGroup || xs[0] == Group("Work")
    requires xs[1] == CommonGroup || xs[1] == Group("Work")
    requires Below(xs[0].name, xs[1].name)
    ensures xs == [CommonGroup, Group("Work")]
  {
    BelowIrreflexive("Work");
    BelowIrreflexive("Common");
    assert !Below("Work", "Common") by {
      assert "Work"[0] != "Common"[0];
    }
  }

  // ---------------------------------------------------------------------------------------
  // The connection state and the dialogs

  /** The App's state: the global state, the open dialog (a name or null), the snippet being
      edited, and the connection state. */
  datatype App = App(global: GlobalState, openDialog: Option<string>,
                     editSnippet: Option<EditSnippet>, dbState: DbState)

  const InitialApp := App(DefaultGlobal, None, None, Connecting)

  /** The open request failed. */
  function OnOpenError(app: App): (r: App)
    ensures r.dbState == Error && r.global == app.global
    ensures r.openDialog == app.openDialog && r.editSnippet == app.editSnippet
  {
    app.(dbState := Error)
  }

  /** The open request is blocked by another connection on an older version. */
  function OnBlocked(app: App): (r: App)
    ensures r.dbState == OldVersionError && r.global == app.global
    ensures r.openDialog == app.openDialog && r.editSnippet == app.editSnippet
  {
    app.(dbState := OldVersionError)
  }

  /** The open request succeeded: bind a store to each object store, read both collections,
      and become ready with both results, or fall to the error state when either read fails.
      When an object store is missing, opening its transaction throws inside the handler and
      the state is left as it was. */
  function OnOpenSuccess(app: App, conn: Connection, db: Database,
                         groupsFault: Option<ErrorEvent>, categoriesFault: Option<ErrorEvent>): (r: App)
    ensures db.groups.None? || db.snippetCategories.None? ==> r == app
    ensures r.openDialog == app.openDialog && r.editSnippet == app.editSnippet
    ensures db.groups.Some? && db.snippetCategories.Some? ==>
              (r.dbState == Ready <==> groupsFault.None? && categoriesFault.None?)
              && (r.dbState != Ready ==> r.dbState == Error && r.global == app.global)
              && (r.dbState == Ready ==>
                    ConnectedState(r.global)
                    && r.global.groups == Listing(db.groups.value, GroupKey)
                    && r.global.snippetCategories == Listing(db.snippetCategories.value, CategoryKey))
  {
    var groupStore := IndexedDBStore(GroupCollection, Some(conn));
    var categoryStore := IndexedDBStore(SnippetCategoryCollection, Some(conn));
    match (db.groups, db.snippetCategories)
    case (Some(groups), Some(categories)) =>
      var rg := FindAll(groupStore, groups, GroupKey, groupsFault);
      var rc := FindAll(categoryStore, categories, CategoryKey, categoriesFault);
      if rg.Resolved? && rc.Resolved? then
        app.(dbState := Ready,
             global := GlobalState(groupStore, categoryStore, rg.value, rc.value,
                                   Reload(groupStore), Reload(categoryStore)))
      else app.(dbState := Error)
    case _ => app
  }

  /** A menu click opens the named dialog and forgets any snippet being edited. */
  function OnMenuClick(app: App, dialog: string): (r: App)
    ensures r.openDialog == Some(dialog) && r.editSnippet.None?
    ensures r.global == app.global && r.dbState == app.dbState
  {
    app.(openDialog := Some(dialog), editSnippet := None)
  }

  /** An edit click remembers the snippet and opens the snippet dialog. */
  function OnEditSnippetClick(app: App, item: EditSnippet): (r: App)
    ensures r.editSnippet == Some(item) && r.openDialog == Some(AddSnippetDialog)
    ensures r.global == app.global && r.dbState == app.dbState
  {
    app.(editSnippet := Some(item), openDialog := Some(AddSnippetDialog))
  }

  /** A form's `onClose`: no dialog is open; the edited snippet is kept. */
  function CloseDialog(app: App): (r: App)
    ensures r.openDialog.None?
    ensures r.global == app.global && r.dbState == app.dbState && r.editSnippet == app.editSnippet
  {
    app.(openDialog := None)
  }

  /** The two explanations the blocking dialog can show. */
  datatype BlockingMessage = UpdatedInAnotherTab | ConnectionFailed

  /** The full-screen blocking dialog, with the message it shows; None when it is closed. */
  function BlockingDialog(app: App): (r: Option<BlockingMessage>)
    ensures r.Some? <==> app.dbState == Error || app.dbState == OldVersionError
    ensures r == Some(UpdatedInAnotherTab) <==> app.dbState == OldVersionError
    ensures r == Some(ConnectionFailed) <==> app.dbState == Error
  {
    match app.dbState
    case OldVersionError => Some(UpdatedInAnotherTab)
    case Error => Some(ConnectionFailed)
    case _ => None
  }

  /** The handshake from the initial state: the blocking dialog is closed while connecting and
      once ready, and open after an open error or a block. */
  lemma HandshakeBlocksOnlyOnFailure(conn: Connection, db: Database,
                                     gf: Option<ErrorEvent>, cf: Option<ErrorEvent>)
    ensures InitialApp.dbState == Connecting && BlockingDialog(InitialApp).None?
    ensures BlockingDialog(OnOpenError(InitialApp)) == Some(ConnectionFailed)
    ensures BlockingDialog(OnBlocked(InitialApp)) == Some(UpdatedInAnotherTab)
    ensures OnOpenSuccess(InitialApp, conn, UpgradeSchema(db), gf, cf).dbState == Ready <==> gf.None? && cf.None?
    ensures BlockingDialog(OnOpenSuccess(InitialApp, conn, UpgradeSchema(db), gf, cf)).None? <==> gf.None? && cf.None?
  {
  }
}

=== FILE: snippet_edits.dfy ===
/** The pure transformations of a category's snippet list: the upsert the snippet form hands to
    `findOneAndUpdate`, the delete-by-id filter, the bucketing of snippets by group for display,
    and the payload of an edit click. */
module SnippetEdits {
  import opened Outcomes
  import opened Models
  import KeyOrder

  /** The position of the first snippet whose id is `id`. `id` is None when no snippet is being
      edited: `editSnippet?.id` is then `undefined`, which equals no snippet's id. */
  function FirstIndexOf(ss: seq<Snippet>, id: Option<string>): (r: Option<nat>)
    ensures r.Some? ==> r.value < |ss| && id == Some(ss[r.value].id)
    ensures r.Some? ==> forall j :: 0 <= j < r.value ==> id != Some(ss[j].id)
    ensures r.None? <==> forall j :: 0 <= j < |ss| ==> id != Some(ss[j].id)
    decreases |ss|
  {
    if |ss| == 0 then None
    else if id == Some(ss[0].id) then Some(0)
    else match FirstIndexOf(ss[1..], id)
      case None => None
      case Some(i) => Some(i + 1)
  }

  /** The mutator of the snippet form: when a snippet has the edited id, the first such snippet
      takes the form's group, name and contents and keeps its id and position; otherwise a new
      snippet with id `newId` is appended. */
  function UpsertSnippet(doc: SnippetCategory, editId: Option<string>, newId: string,
                         group: string, name: string, contents: seq<SnippetContent>): (r: SnippetCategory)
    ensures r.name == doc.name
    ensures FirstIndexOf(doc.snippets, editId).None? ==>
              |r.snippets| == |doc.snippets| + 1
              && r.snippets[..|doc.snippets|] == doc.snippets
              && r.snippets[|doc.snippets|] == Snippet(newId, group, name, contents)
    ensures FirstIndexOf(doc.snippets, editId).Some? ==>
              var i := FirstIndexOf(doc.snippets, editId).value;
              |r.snippets| == |doc.snippets|
              && r.snippets[i] == Snippet(doc.snippets[i].id, group, name, contents)
              && forall j :: 0 <= j < |r.snippets| && j != i ==> r.snippets[j] == doc.snippets[j]
  {
    match FirstIndexOf(doc.snippets, editId)
    case None => doc.(snippets := doc.snippets + [Snippet(newId, group, name, contents)])
    case Some(i) =>
      var s := doc.snippets[i];
      doc.(snippets := doc.snippets[i := s.(content := contents, name := name, group := group)])
  }

  /** The snippets whose id is not `id`, in their original order. */
  function WithoutId(ss: seq<Snippet>, id: string): (r: seq<Snippet>)
    ensures forall s :: s in r <==> s in ss && s.id != id
    ensures |r| <= |ss|
    ensures (forall j :: 0 <= j < |ss| ==> ss[j].id != id) ==> r == ss
    decreases |ss|
  {
    if |ss| == 0 then []
    else
      assert ss == [ss[0]] + ss[1..];
      var rest := WithoutId(ss[1..], id);
      if ss[0].id != id then [ss[0]] + rest else rest
  }

  /** Each kept snippet occurs as often as in the input; the removed ones not at all. */
  lemma {:induction false} WithoutIdCounts(ss: seq<Snippet>, id: string, s: Snippet)
    ensures multiset(WithoutId(ss, id))[s] == if s.id == id then 0 else multiset(ss)[s]
    decreases |ss|
  {
    if |ss| > 0 {
      assert ss == [ss[0]] + ss[1..];
      WithoutIdCounts(ss[1..], id, s);
    }
  }

  /** The delete mutator: a shallow copy of the category whose `snippets` are filtered by id. */
  function DeleteSnippet(doc: SnippetCategory, id: string): (r: SnippetCategory)
    ensures r == doc.(snippets := r.snippets)
    ensures forall s :: s in r.snippets <==> s in doc.snippets && s.id != id
    ensures (forall j :: 0 <= j < |doc.snippets| ==> doc.snippets[j].id != id) ==> r == doc
  {
    doc.(snippets := WithoutId(doc.snippets, id))
  }

  /** Filtering commutes with concatenation; with the one-element cases this pins down the
      order of the result: the kept snippets stay in their input order. */
  lemma {:induction false} WithoutIdDistributes(a: seq<Snippet>, b: seq<Snippet>, id: string)
    ensures WithoutId(a + b, id) == WithoutId(a, id) + WithoutId(b, id)
    decreases |a|
  {
    if |a| == 0 {
      assert a + b == b;
    } else {
      var ab := a + b;
      assert ab[0] == a[0] && ab[1..] == a[1..] + b;
      WithoutIdDistributes(a[1..], b, id);
      if a[0].id != id {
        calc {
          WithoutId(ab, id);
          [a[0]] + WithoutId(a[1..] + b, id);
          [a[0]] + (WithoutId(a[1..], id) + WithoutId(b, id));
          ([a[0]] + WithoutId(a[1..], id)) + WithoutId(b, id);
        }
      } else {
        assert WithoutId(ab, id) == WithoutId(a[1..] + b, id);
      }
    }
  }

  /** Deleting the snippet just appended by the form, under a fresh id, gives back the category
      as it was. */
  lemma UpsertThenDeleteRestores(doc: SnippetCategory, editId: Option<string>, newId: string,
                                 group: string, name: string, contents: seq<SnippetContent>)
    requires FirstIndexOf(doc.snippets, editId).None?
    requires forall j :: 0 <= j < |doc.snippets| ==> doc.snippets[j].id != newId
    ensures DeleteSnippet(UpsertSnippet(doc, editId, newId, group, name, contents), newId) == doc
  {
    var added := Snippet(newId, group, name, contents);
    var u := UpsertSnippet(doc, editId, newId, group, name, contents);
    assert u.snippets == doc.snippets + [added];
    WithoutIdDistributes(doc.snippets, [added], newId);
    assert WithoutId([added], newId) == [];
  }

  /** Submitting a snippet's own fields as an edit leaves its category unchanged. */
  lemma UpsertOwnFieldsIsIdentity(doc: SnippetCategory, i: nat, newId: string)
    requires i < |doc.snippets|
    requires FirstIndexOf(doc.snippets, Some(doc.snippets[i].id)) == Some(i)
    ensures var s := doc.snippets[i];
            UpsertSnippet(doc, Some(s.id), newId, s.group, s.name, s.content) == doc
  {
    var s := doc.snippets[i];
    var u := UpsertSnippet(doc, Some(s.id), newId, s.group, s.name, s.content);
    assert u.snippets == doc.snippets;
  }

  /** Applying the same edit twice has the effect of applying it once. */
  lemma UpsertEditIdempotent(doc: SnippetCategory, editId: Option<string>, newId: string,
                             group: string, name: string, contents: seq<SnippetContent>)
    requires FirstIndexOf(doc.snippets, editId).Some?
    ensures var once := UpsertSnippet(doc, editId, newId, group, name, contents);
            UpsertSnippet(once, editId, newId, group, name, contents) == once
  {
    var i := FirstIndexOf(doc.snippets, editId).value;
    var once := UpsertSnippet(doc, editId, newId, group, name, contents);
    assert forall j :: 0 <= j <= i ==> once.snippets[j].id == doc.snippets[j].id;
    assert FirstIndexOf(once.snippets, editId) == Some(i);
    var twice := UpsertSnippet(once, editId, newId, group, name, contents);
    assert twice.snippets == once.snippets;
  }

  /** The edit payload: the snippet's fields unchanged, plus the name of its category. */
  function ToEditSnippet(s: Snippet, category: string): (r: EditSnippet)
    ensures AsSnippet(r) == s
    ensures r.category == category
  {
    EditSnippet(s.id, s.group, s.name, s.content, category)
  }

  /** The snippet part of an edit payload. */
  function AsSnippet(e: EditSnippet): Snippet
  {
    Snippet(e.id, e.group, e.name, e.content)
  }

  // ---------------------------------------------------------------------------------------
  // Grouping by `group`

  /** Buckets of snippets, keyed by group name. */
  type Buckets = map<string, seq<Snippet>>

  /** Reference definition: the snippets of group `g`, in input order. */
  function OfGroup(ss: seq<Snippet>, g: string): seq<Snippet>
    decreases |ss|
  {
    if |ss| == 0 then []
    else (if ss[0].group == g then [ss[0]] else []) + OfGroup(ss[1..], g)
  }

  /** The groups that occur in `ss`. */
  function GroupsOf(ss: seq<Snippet>): set<string>
  {
    set i | 0 <= i < |ss| :: ss[i].group
  }

  /** One step of the reduce: push onto the snippet's bucket, or open it. */
  function Bucket(acc: Buckets, s: Snippet): Buckets
  {
    if s.group in acc then acc[s.group := acc[s.group] + [s]] else acc[s.group := [s]]
  }

  /** The reduce from a given accumulator. */
  function GroupFrom(acc: Buckets, ss: seq<Snippet>): (r: Buckets)
    ensures r.Keys == acc.Keys + GroupsOf(ss)
    ensures forall g :: g in r ==> r[g] == (if g in acc then acc[g] else []) + OfGroup(ss, g)
    decreases |ss|
  {
    if |ss| == 0 then acc
    else
      var b := Bucket(acc, ss[0]);
      var r := GroupFrom(b, ss[1..]);
      assert r.Keys == acc.Keys + GroupsOf(ss) by {
        assert b.Keys == acc.Keys + {ss[0].group};
        GroupsOfSplit(ss);
      }
      assert forall g :: g in r ==> r[g] == (if g in acc then acc[g] else []) + OfGroup(ss, g) by {
        forall g | g in r ensures r[g] == (if g in acc then acc[g] else []) + OfGroup(ss, g) {
          BucketStep(acc, ss, g);
        }
      }
      r
  }

  lemma GroupsOfSplit(ss: seq<Snippet>)
    requires |ss| > 0
    ensures GroupsOf(ss) == {ss[0].group} + GroupsOf(ss[1..])
  {
    assert forall i :: 1 <= i < |ss| ==> ss[i].group == ss[1..][i - 1].group;
  }

  /** Pushing the first snippet into its bucket and then grouping the rest lays out the same
      contents, bucket by bucket, as grouping the whole input. */
  ghost predicate BucketThenRest(acc: Buckets, ss: seq<Snippet>, g: string)
    requires |ss| > 0
  {
    var b := Bucket(acc, ss[0]);
    (if g in b then b[g] else []) + OfGroup(ss[1..], g) == (if g in acc then acc[g] else []) + OfGroup(ss, g)
  }

  lemma BucketStep(acc: Buckets, ss: seq<Snippet>, g: string)
    requires |ss| > 0
    ensures BucketThenRest(acc, ss, g)
  {
    var prior := if g in acc then acc[g] else [];
    var head := if ss[0].group == g then [ss[0]] else [];
    assert OfGroup(ss, g) == head + OfGroup(ss[1..], g);
    assert prior + (head + OfGroup(ss[1..], g)) == (prior + head) + OfGroup(ss[1..], g);
  }

  /** `groupedSnippets`: each group that occurs gets a bucket holding exactly that group's
      snippets, in input order. */
  function GroupSnippets(ss: seq<Snippet>): (r: Buckets)
    ensures r.Keys == GroupsOf(ss)
    ensures forall g :: g in r ==> r[g] == OfGroup(ss, g)
  {
    GroupFrom(map[], ss)
  }

  lemma {:induction false} OfGroupNonEmpty(ss: seq<Snippet>, g: string)
    requires g in GroupsOf(ss)
    ensures |OfGroup(ss, g)| > 0
    decreases |ss|
  {
    if ss[0].group != g {
      var i :| 0 <= i < |ss| && ss[i].group == g;
      assert ss[1..][i - 1].group == g;
      OfGroupNonEmpty(ss[1..], g);
    }
  }

  lemma {:induction false} OfGroupCount(ss: seq<Snippet>, g: string, s: Snippet)
    ensures multiset(OfGroup(ss, g))[s] == if s.group == g then multiset(ss)[s] else 0
    decreases |ss|
  {
    if |ss| > 0 {
      assert ss == [ss[0]] + ss[1..];
      OfGroupCount(ss[1..], g, s);
    }
  }

  /** No bucket is empty, and every snippet sits in the bucket of its own group, as many times
      as it occurs in the input, and in no other bucket. */
  lemma GroupingPlacesEachSnippetOnce(ss: seq<Snippet>)
    ensures forall g :: g in GroupSnippets(ss) ==> |GroupSnippets(ss)[g]| > 0
    ensures forall i :: 0 <= i < |ss| ==> ss[i].group in GroupSnippets(ss)
    ensures forall s: Snippet :: s.group in GroupSnippets(ss) ==> multiset(GroupSnippets(ss)[s.group])[s] == multiset(ss)[s]
    ensures forall g, s: Snippet :: g in GroupSnippets(ss) && s in GroupSnippets(ss)[g] ==> s.group == g
  {
    BucketsPlaceEachSnippetOnce(ss, GroupSnippets(ss));
  }

  lemma BucketsPlaceEachSnippetOnce(ss: seq<Snippet>, r: Buckets)
    requires r.Keys == GroupsOf(ss)
    requires forall g :: g in r ==> r[g] == OfGroup(ss, g)
    ensures forall g :: g in r ==> |r[g]| > 0
    ensures forall i :: 0 <= i < |ss| ==> ss[i].group in r
    ensures forall s: Snippet :: s.group in r ==> multiset(r[s.group])[s] == multiset(ss)[s]
    ensures forall g, s: Snippet :: g in r && s in r[g] ==> s.group == g
  {
    forall g | g in r ensures |r[g]| > 0 {
      OfGroupNonEmpty(ss, g);
    }
    forall i | 0 <= i < |ss| ensures ss[i].group in r {
      assert ss[i].group in GroupsOf(ss);
    }
    forall s: Snippet | s.group in r ensures multiset(r[s.group])[s] == multiset(ss)[s] {
      OfGroupCount(ss, s.group, s);
    }
    forall g, s: Snippet | g in r && s in r[g] ensures s.group == g {
      OfGroupCount(ss, g, s);
    }
  }

  /** The sum of the bucket sizes. */
  function TotalSize(m: Buckets): nat
    decreases |m|
  {
    if |m| == 0 then 0
    else
      var g := KeyOrder.Least(m.Keys);
      |m[g]| + TotalSize(m - {g})
  }

  lemma {:induction false} TotalSizeSplit(m: Buckets, k: string)
    requires k in m
    ensures TotalSize(m) == |m[k]| + TotalSize(m - {k})
    decreases |m|
  {
    var g := KeyOrder.Least(m.Keys);
    if g != k {
      RemoveBoth(m, g, k);
      TotalSizeSplit(m - {g}, k);
      TotalSizeSplit(m - {k}, g);
    }
  }

  /** Removing two present keys, in either order. */
  lemma RemoveBoth(m: Buckets, g: string, k: string)
    requires g in m && k in m && g != k
    ensures |m - {g}| < |m| && |m - {k}| < |m|
    ensures k in m - {g} && (m - {g})[k] == m[k]
    ensures g in m - {k} && (m - {k})[g] == m[g]
    ensures (m - {g}) - {k} == (m - {k}) - {g}
  {
    assert (m - {g}).Keys == m.Keys - {g};
    assert (m - {k}).Keys == m.Keys - {k};
  }

  lemma BucketAddsOne(acc: Buckets, s: Snippet)
    ensures TotalSize(Bucket(acc, s)) == TotalSize(acc) + 1
  {
    var g := s.group;
    BucketOthersUnchanged(acc, s);
    TotalSizeSplit(Bucket(acc, s), g);
    if g in acc {
      TotalSizeSplit(acc, g);
    }
  }

  /** Bucketing touches only the snippet's own bucket, which grows by one. */
  lemma BucketOthersUnchanged(acc: Buckets, s: Snippet)
    ensures s.group in Bucket(acc, s)
    ensures |Bucket(acc, s)[s.group]| == (if s.group in acc then |acc[s.group]| else 0) + 1
    ensures Bucket(acc, s) - {s.group} == acc - {s.group}
    ensures s.group !in acc ==> acc - {s.group} == acc
  {
  }

  lemma {:induction false} GroupFromSize(acc: Buckets, ss: seq<Snippet>)
    ensures TotalSize(GroupFrom(acc, ss)) == TotalSize(acc) + |ss|
    decreases |ss|
  {
    if |ss| > 0 {
      BucketAddsOne(acc, ss[0]);
      GroupFromSize(Bucket(acc, ss[0]), ss[1..]);
    }
  }

  /** The bucket sizes add up to the number of snippets. */
  lemma BucketSizesSumToInput(ss: seq<Snippet>)
    ensures TotalSize(GroupSnippets(ss)) == |ss|
  {
    GroupFromSize(map[], ss);
  }

  /** "No snippets found" shows when there is no bucket, which is exactly when the category has
      no snippets. */
  lemma NoBucketsIffNoSnippets(ss: seq<Snippet>)
    ensures |GroupSnippets(ss)| == 0 <==> |ss| == 0
  {
    if |ss| > 0 {
      assert ss[0].group in GroupSnippets(ss);
    }
  }

  // ---------------------------------------------------------------------------------------
  // The reduce as written: its accumulator `{}` inherits Object.prototype

  /** Property names a plain `{}` inherits. Each reads back truthy (a function, or the prototype
      object for `__proto__`), and none of them has a `push` method. */
  const InheritedNames: set<string> := {
    "constructor", "__proto__", "hasOwnProperty", "isPrototypeOf", "propertyIsEnumerable",
    "toLocaleString", "toString", "valueOf", "__defineGetter__", "__defineSetter__",
    "__lookupGetter__", "__lookupSetter__"
  }

  /** One step of the reduce as written: `acc[snippet.group]` is truthy for an inherited name
      that has no own bucket yet, so `.push` is called on a value without it and a TypeError
      ends the render (None). */
  function BucketAsWritten(acc: Option<Buckets>, s: Snippet): Option<Buckets>
  {
    match acc
    case None => None
    case Some(m) =>
      if s.group in m then Some(Bucket(m, s))
      else if s.group in InheritedNames then None
      else Some(Bucket(m, s))
  }

  function GroupFromAsWritten(acc: Option<Buckets>, ss: seq<Snippet>): Option<Buckets>
    decreases |ss|
  {
    if |ss| == 0 then acc else GroupFromAsWritten(BucketAsWritten(acc, ss[0]), ss[1..])
  }

  function GroupSnippetsAsWritten(ss: seq<Snippet>): Option<Buckets>
  {
    GroupFromAsWritten(Some(map[]), ss)
  }

  lemma {:induction false} GroupFromAsWrittenAgrees(m: Buckets, ss: seq<Snippet>)
    requires forall g :: g in m ==> g !in InheritedNames
    ensures (exists i :: 0 <= i < |ss| && ss[i].group in InheritedNames) ==>
              GroupFromAsWritten(Some(m), ss) == None
    ensures (forall i :: 0 <= i < |ss| ==> ss[i].group !in InheritedNames) ==>
              GroupFromAsWritten(Some(m), ss) == Some(GroupFrom(m, ss))
    decreases |ss|
  {
    if |ss| > 0 {
      if ss[0].group in InheritedNames {
        assert ss[0].group !in m;
        NoneStaysNone(ss[1..]);
      } else {
        forall i | 0 <= i < |ss[1..]| ensures ss[1..][i] == ss[i + 1] { }
        GroupFromAsWrittenAgrees(Bucket(m, ss[0]), ss[1..]);
      }
    }
  }

  lemma {:induction false} NoneStaysNone(ss: seq<Snippet>)
    ensures GroupFromAsWritten(None, ss) == None
    decreases |ss|
  {
    if |ss| > 0 {
      NoneStaysNone(ss[1..]);
    }
  }

  /** The reduce as written fails exactly when some snippet's group is an inherited property
      name, and otherwise yields the intended buckets. */
  lemma GroupAsWrittenFailsIffInheritedName(ss: seq<Snippet>)
    ensures GroupSnippetsAsWritten(ss).None? <==> exists i :: 0 <= i < |ss| && ss[i].group in InheritedNames
    ensures GroupSnippetsAsWritten(ss).Some? ==> GroupSnippetsAsWritten(ss).value == GroupSnippets(ss)
  {
    GroupFromAsWrittenAgrees(map[], ss);
  }

  /** A single snippet in a group named "toString" (a name the group form accepts) makes the
      reduce as written fail, while the intended grouping gives it a bucket of its own. */
  lemma ToStringGroupBreaksGrouping()
    ensures var ss := [Snippet("1", "toString", "list files", [SnippetContent("ls")])];
            GroupSnippetsAsWritten(ss) == None && GroupSnippets(ss) == map["toString" := ss]
  {
    var ss := [Snippet("1", "toString", "list files", [SnippetContent("ls")])];
    GroupAsWrittenFailsIffInheritedName(ss);
    assert ss[0].group in InheritedNames;
    assert GroupsOf(ss) == {"toString"};
    assert OfGroup(ss, "toString") == ss;
  }
}

=== FILE: store.dfy ===
/** The keyed document store: `BaseStore` and its IndexedDB implementation.

    A collection is a finite map from key (`name`) to document. The engine's `add` never
    overwrites and its `put` always does. Each request may also fail for reasons of the engine's
    own (I/O, quota, an aborted transaction); that failure is a parameter, `fault`, holding the
    error event the request would raise. */
module Store {
  import opened Outcomes
  import opened KeyOrder

  /** A `DOMException` as the engine attaches it to a failed request. */
  datatype DomException = DomException(name: string, message: string)

  /** The `target` of an error event: a request carrying an `error` property (possibly null),
      or an object without one. */
  datatype EventTarget = RequestTarget(error: Option<DomException>) | Bare

  /** An error event; its target may be missing. */
  datatype ErrorEvent = ErrorEvent(target: Option<EventTarget>)

  const NotImplemented := JsError("Error", "Method not implemented.")
  const NoDatabase := JsError("Error", "Indexed DB is undefined")
  const GenericFailure := JsError("Error", "Something went wrong...")

  function NotFound(id: string): JsError
  {
    JsError("Error", "Document with key " + id + " is not found")
  }

  /** The text of the engine's uniqueness error is the engine's own; only its name matters. */
  const ConstraintMessage := "Key already exists in the object store."
  const ConstraintError := JsError("ConstraintError", ConstraintMessage)

  /** The event the engine raises when `add` meets a key that is already stored. */
  const ConstraintEvent := ErrorEvent(Some(RequestTarget(Some(DomException("ConstraintError", ConstraintMessage)))))

  /** `parseError`: a generic Error when the event has no target, the target's `error` when the
      target carries one (null included), and null when the target has no `error` property. */
  function ParseError(e: ErrorEvent): (r: Option<JsError>)
    ensures e.target.None? ==> r == Some(GenericFailure)
    ensures r.Some? && r != Some(GenericFailure) ==> e.target.Some? && e.target.value.RequestTarget?
    ensures forall d: DomException :: e.target == Some(RequestTarget(Some(d))) ==> r == Some(JsError(d.name, d.message))
    ensures r.None? <==> e.target.Some? && (e.target.value.Bare? || e.target.value.error.None?)
  {
    match e.target
    case None => Some(GenericFailure)
    case Some(Bare) => None
    case Some(RequestTarget(None)) => None
    case Some(RequestTarget(Some(d))) => Some(JsError(d.name, d.message))
  }

  /** An opened database connection (`IDBDatabase`). */
  datatype Connection = Connection

  /** The two store classes: the abstract `BaseStore`, and `IndexedDBStore`, which names its
      object store and holds a connection handle that may be null. */
  datatype Store = BaseStore | IndexedDBStore(storeName: string, db: Option<Connection>)

  predicate Connected(s: Store)
  {
    s.IndexedDBStore? && s.db.Some?
  }

  /** `setDB`: hand the store a connection. */
  function SetDB(s: Store, conn: Connection): (r: Store)
    requires s.IndexedDBStore?
    ensures Connected(r)
    ensures r.storeName == s.storeName
  {
    s.(db := Some(conn))
  }

  /** What a call raises synchronously, before it opens a transaction: `BaseStore`'s methods all
      throw, and `validateAndGetDB` throws when the handle is null. */
  function Guard(s: Store): (r: Option<JsError>)
    ensures r.None? <==> Connected(s)
    ensures s.BaseStore? ==> r == Some(NotImplemented)
    ensures s.IndexedDBStore? && s.db.None? ==> r == Some(NoDatabase)
  {
    match s
    case BaseStore => Some(NotImplemented)
    case IndexedDBStore(_, None) => Some(NoDatabase)
    case IndexedDBStore(_, Some(_)) => None
  }

  /** The end of a write: how the call ends, and the collection afterwards. */
  datatype Step<D, T> = Step(outcome: Completion<T>, after: map<string, D>)

  /** The end of `findOneAndUpdate`: also the documents the mutator was applied to, in order. */
  datatype UpdateStep<D> = UpdateStep(outcome: Completion<D>, after: map<string, D>, mutated: seq<D>)

  /** `add`: insert only. Resolves with the payload itself. */
  function Add<D>(s: Store, key: D -> string, c: map<string, D>, doc: D,
                  fault: Option<ErrorEvent>): (r: Step<D, D>)
    ensures r.outcome.Threw? <==> !Connected(s)
    ensures !Connected(s) ==> r.outcome == Threw(Guard(s).value)
    ensures r.outcome.Resolved? <==> Connected(s) && fault.None? && key(doc) !in c
    ensures r.outcome.Resolved? ==> r.outcome.value == doc && r.after == c[key(doc) := doc]
    ensures !r.outcome.Resolved? ==> r.after == c
    ensures Connected(s) && fault.None? && key(doc) in c ==> r.outcome == Rejected(Some(ConstraintError))
    ensures Connected(s) && fault.Some? ==> r.outcome == Rejected(ParseError(fault.value))
  {
    match Guard(s)
    case Some(e) => Step(Threw(e), c)
    case None =>
      if fault.Some? then Step(Rejected(ParseError(fault.value)), c)
      else if key(doc) in c then Step(Rejected(ParseError(ConstraintEvent)), c)
      else Step(Resolved(doc), c[key(doc) := doc])
  }

  /** `findAll`: every stored document, in the engine's ascending key order. */
  function FindAll<D(==)>(s: Store, c: map<string, D>, ghost key: D -> string,
                          fault: Option<ErrorEvent>): (r: Completion<seq<D>>)
    ensures r.Threw? <==> !Connected(s)
    ensures !Connected(s) ==> r == Threw(Guard(s).value)
    ensures r.Resolved? <==> Connected(s) && fault.None?
    ensures Connected(s) && fault.Some? ==> r == Rejected(ParseError(fault.value))
    ensures r.Resolved? ==> |r.value| == |c|
    ensures r.Resolved? ==> forall k :: k in c ==> c[k] in r.value
    ensures r.Resolved? ==> forall i :: 0 <= i < |r.value| ==> r.value[i] in c.Values
    ensures r.Resolved? && WellKeyed(c, key) ==>
              forall i, j :: 0 <= i < j < |r.value| ==> Below(key(r.value[i]), key(r.value[j]))
  {
    match Guard(s)
    case Some(e) => Threw(e)
    case None =>
      if fault.Some? then Rejected(ParseError(fault.value))
      else Resolved(Listing(c, key))
  }

  /** `findByKey`: an absent key resolves to `undefined`, not to an error. */
  function FindByKey<D>(s: Store, c: map<string, D>, id: string,
                        fault: Option<ErrorEvent>): (r: Completion<Option<D>>)
    ensures r.Threw? <==> !Connected(s)
    ensures !Connected(s) ==> r == Threw(Guard(s).value)
    ensures r.Resolved? <==> Connected(s) && fault.None?
    ensures Connected(s) && fault.Some? ==> r == Rejected(ParseError(fault.value))
    ensures r.Resolved? ==> (r.value.Some? <==> id in c)
    ensures r.Resolved? && id in c ==> r.value.value == c[id]
  {
    match Guard(s)
    case Some(e) => Threw(e)
    case None =>
      if fault.Some? then Rejected(ParseError(fault.value))
      else if id in c then Resolved(Some(c[id]))
      else Resolved(None)
  }

  /** `findOneAndUpdate`: read the document at `id`; reject when it is absent, without calling
      `mutate` and without writing; otherwise apply `mutate` once and `put` the result, which
      is written under its own key. */
  function FindOneAndUpdate<D>(s: Store, key: D -> string, c: map<string, D>, id: string,
                               mutate: D -> D, readFault: Option<ErrorEvent>,
                               writeFault: Option<ErrorEvent>): (r: UpdateStep<D>)
    ensures r.outcome.Threw? <==> !Connected(s)
    ensures !Connected(s) ==> r.outcome == Threw(Guard(s).value)
    ensures r.outcome.Resolved? <==> Connected(s) && readFault.None? && id in c && writeFault.None?
    ensures Connected(s) && readFault.Some? ==> r.outcome == Rejected(ParseError(readFault.value))
    ensures Connected(s) && readFault.None? && id !in c ==> r.outcome == Rejected(Some(NotFound(id)))
    ensures r.mutated == (if Connected(s) && readFault.None? && id in c then [c[id]] else [])
    ensures r.outcome.Resolved? ==>
              r.outcome.value == mutate(c[id]) && r.after == c[key(r.outcome.value) := r.outcome.value]
    ensures !r.outcome.Resolved? ==> r.after == c
    ensures Connected(s) && readFault.None? && id in c && writeFault.Some? ==>
              r.outcome == Rejected(ParseError(writeFault.value))
  {
    match Guard(s)
    case Some(e) => UpdateStep(Threw(e), c, [])
    case None =>
      if readFault.Some? then UpdateStep(Rejected(ParseError(readFault.value)), c, [])
      else if id !in c then UpdateStep(Rejected(Some(NotFound(id))), c, [])
      else
        var prior := c[id];
        var next := mutate(prior);
        if writeFault.Some? then UpdateStep(Rejected(ParseError(writeFault.value)), c, [prior])
        else UpdateStep(Resolved(next), c[key(next) := next], [prior])
  }

  /** `update`: `put` replaces the document under the payload's key, or inserts it. */
  function Update<D>(s: Store, key: D -> string, c: map<string, D>, doc: D,
                     fault: Option<ErrorEvent>): (r: Step<D, D>)
    ensures r.outcome.Threw? <==> !Connected(s)
    ensures !Connected(s) ==> r.outcome == Threw(Guard(s).value)
    ensures r.outcome.Resolved? <==> Connected(s) && fault.None?
    ensures Connected(s) && fault.Some? ==> r.outcome == Rejected(ParseError(fault.value))
    ensures r.outcome.Resolved? ==> r.outcome.value == doc && r.after == c[key(doc) := doc]
    ensures !r.outcome.Resolved? ==> r.after == c
  {
    match Guard(s)
    case Some(e) => Step(Threw(e), c)
    case None =>
      if fault.Some? then Step(Rejected(ParseError(fault.value)), c)
      else Step(Resolved(doc), c[key(doc) := doc])
  }

  /** The `type` of the success event of a request. */
  const SuccessEventType := "success"

  /** `delete`: removes the key if present (an absent key is not an error) and resolves with the
      success event's type, not with the key. */
  function Delete<D>(s: Store, c: map<string, D>, id: string,
                     fault: Option<ErrorEvent>): (r: Step<D, string>)
    ensures r.outcome.Threw? <==> !Connected(s)
    ensures !Connected(s) ==> r.outcome == Threw(Guard(s).value)
    ensures r.outcome.Resolved? <==> Connected(s) && fault.None?
    ensures Connected(s) && fault.Some? ==> r.outcome == Rejected(ParseError(fault.value))
    ensures r.outcome.Resolved? ==> r.outcome.value == SuccessEventType
    ensures r.outcome.Resolved? ==> r.after.Keys == c.Keys - {id}
    ensures r.outcome.Resolved? ==> forall k :: k in r.after ==> r.after[k] == c[k]
    ensures !r.outcome.Resolved? ==> r.after == c
  {
    match Guard(s)
    case Some(e) => Step(Threw(e), c)
    case None =>
      if fault.Some? then Step(Rejected(ParseError(fault.value)), c)
      else Step(Resolved(SuccessEventType), c - {id})
  }

  /** Adding a document and then looking up its key finds that very document. */
  lemma AddThenFindByKey<D>(s: Store, key: D -> string, c: map<string, D>, doc: D)
    requires Connected(s)
    requires key(doc) !in c
    ensures Add(s, key, c, doc, None).outcome == Resolved(doc)
    ensures FindByKey(s, Add(s, key, c, doc, None).after, key(doc), None) == Resolved(Some(doc))
  {
  }

  /** A second `add` under a stored key is refused with a constraint error and the first
      document stays. */
  lemma DuplicateAddKeepsFirst<D>(s: Store, key: D -> string, c: map<string, D>, a: D, b: D)
    requires Connected(s)
    requires key(a) !in c && key(b) == key(a)
    ensures var first := Add(s, key, c, a, None);
            var second := Add(s, key, first.after, b, None);
            second.outcome == Rejected(Some(ConstraintError)) && second.after == first.after
            && second.after[key(a)] == a
  {
  }

  /** After a successful `findOneAndUpdate`, a lookup of the written key sees the mutator's
      result; when the mutator keeps the key, that is the key that was read. */
  lemma FindOneAndUpdateThenFindByKey<D>(s: Store, key: D -> string, c: map<string, D>,
                                         id: string, mutate: D -> D)
    requires Connected(s) && id in c
    requires key(mutate(c[id])) == id
    ensures var u := FindOneAndUpdate(s, key, c, id, mutate, None, None);
            u.outcome == Resolved(mutate(c[id]))
            && u.after == c[id := mutate(c[id])]
            && FindByKey(s, u.after, id, None) == Resolved(Some(mutate(c[id])))
  {
  }

  /** After a successful `delete`, the key is absent. */
  lemma DeleteThenFindByKey<D>(s: Store, c: map<string, D>, id: string)
    requires Connected(s)
    ensures FindByKey(s, Delete(s, c, id, None).after, id, None) == Resolved(None)
  {
  }

  /** The writes store every document under its own key, so a collection whose documents sit
      under their keys stays that way. */
  lemma WritesKeepCollectionWellKeyed<D>(s: Store, key: D -> string, c: map<string, D>, doc: D,
                                         id: string, mutate: D -> D,
                                         f1: Option<ErrorEvent>, f2: Option<ErrorEvent>)
    requires WellKeyed(c, key)
    ensures WellKeyed(Add(s, key, c, doc, f1).after, key)
    ensures WellKeyed(Update(s, key, c, doc, f1).after, key)
    ensures WellKeyed(Delete(s, c, id, f1).after, key)
    ensures WellKeyed(FindOneAndUpdate(s, key, c, id, mutate, f1, f2).after, key)
  {
  }
}

=== FILE: utf16.dfy ===
/** Strings as JavaScript and the storage engine see them: sequences of UTF-16 code units.
    A Dafny `char` is a Unicode scalar value; one above U+FFFF takes two code units, a high
    surrogate followed by a low surrogate. JavaScript's `length` counts code units, and the
    engine compares string keys code unit by code unit. */
module Utf16 {

  const HighSurrogateBase := 0xD800
  const LowSurrogateBase := 0xDC00
  const Supplementary := 0x1_0000

  /** The code units of one character. */
  function Units(c: char): (r: seq<int>)
    ensures 1 <= |r| <= 2
    ensures forall i :: 0 <= i < |r| ==> 0 <= r[i] < Supplementary
    ensures |r| == 2 <==> HighSurrogateBase <= r[0] < LowSurrogateBase
    ensures |r| == 1 <==> c as int < Supplementary
  {
    if c as int < Supplementary then [c as int]
    else
      var v := c as int - Supplementary;
      [HighSurrogateBase + v / 0x400, LowSurrogateBase + v % 0x400]
  }

  /** Two characters with the same code units are the same character. */
  lemma UnitsInjective(c: char, d: char)
    requires Units(c) == Units(d)
    ensures c == d
  {
    if Supplementary <= c as int {
      var v, w := c as int - Supplementary, d as int - Supplementary;
      assert v == (v / 0x400) * 0x400 + v % 0x400;
      assert w == (w / 0x400) * 0x400 + w % 0x400;
    }
  }

  /** The UTF-16 encoding of a string. */
  function Encode(s: string): (r: seq<int>)
    ensures |s| <= |r| <= 2 * |s|
    ensures forall i :: 0 <= i < |r| ==> 0 <= r[i] < Supplementary
  {
    if |s| == 0 then [] else Units(s[0]) + Encode(s[1..])
  }

  /** The encoding of a concatenation is the concatenation of the encodings. */
  lemma {:induction false} EncodeAppend(a: string, b: string)
    ensures Encode(a + b) == Encode(a) + Encode(b)
    decreases |a|
  {
    if |a| > 0 {
      assert (a + b)[0] == a[0] && (a + b)[1..] == a[1..] + b;
      EncodeAppend(a[1..], b);
    } else {
      assert a + b == b;
    }
  }

  /** Distinct strings have distinct encodings. */
  lemma {:induction false} EncodeInjective(a: string, b: string)
    requires Encode(a) == Encode(b)
    ensures a == b
    decreases |a|
  {
    if |a| > 0 {
      var ea, eb := Encode(a), Encode(b);
      var ua, ub := Units(a[0]), Units(b[0]);
      assert ea == ua + Encode(a[1..]) && eb == ub + Encode(b[1..]);
      assert ua[0] == ea[0] == eb[0] == ub[0];
      assert |ua| == |ub|;
      assert ua == ea[..|ua|] == eb[..|ub|] == ub;
      UnitsInjective(a[0], b[0]);
      assert Encode(a[1..]) == ea[|ua|..] == eb[|ub|..] == Encode(b[1..]);
      EncodeInjective(a[1..], b[1..]);
      assert a == [a[0]] + a[1..] && b == [b[0]] + b[1..];
    }
  }

  /** `length` of a JavaScript string. */
  function Length(s: string): (n: nat)
    ensures |s| <= n <= 2 * |s|
  {
    |Encode(s)|
  }

  /** A string with no character above U+FFFF is as long as it has characters. */
  lemma {:induction false} BmpLength(s: string)
    requires forall i :: 0 <= i < |s| ==> s[i] as int < Supplementary
    ensures Length(s) == |s|
  {
    if |s| > 0 {
      assert forall i :: 0 <= i < |s[1..]| ==> s[1..][i] == s[i + 1];
      BmpLength(s[1..]);
    }
  }

  /** A string of characters above U+FFFF is twice as long as it has characters. */
  lemma {:induction false} SupplementaryLength(s: string)
    requires forall i :: 0 <= i < |s| ==> s[i] as int >= Supplementary
    ensures Length(s) == 2 * |s|
  {
    if |s| > 0 {
      assert forall i :: 0 <= i < |s[1..]| ==> s[1..][i] == s[i + 1];
      SupplementaryLength(s[1..]);
    }
  }
}
